=== FILE: README.md ===
# A verified model of CodeContext's `context.py`

`context.py` prints a snapshot of a project for pasting into a conversation
with a language model. This project models the parts of it that compute
text, as pure Dafny functions over immutable values, and proves what they
promise:

- reading `.gitignore` into patterns (`Ignore.IgnorePatterns`) and testing a
  path against them (`Ignore.IsIgnored`), with `fnmatch` left as a parameter;
- the recursive directory tree (`Tree.Render`): which entries are kept,
  their sorted order, the connectors `├── `, `└── `, `│   ` and four spaces,
  and the line of each sub-directory followed by its contents;
- the package names of `requirements.txt` and the dependency table
  (`Deps`);
- the project context a README holds between its first two `<!--LLM-->`
  markers (`Llm.ExtractContext`);
- which sections each command (`dir`, `env`, `llm`, `all`) prints, and in
  which order (`Cli`).

A directory is a value: the entries `os.listdir` returns, in that order.
Each entry is a file, a sub-directory with its own listing, or something
that is neither (a dangling link), which neither list comprehension admits.
Python's `str.strip`, `str.find`, `split('==')[0]`, `', '.join`,
`os.path.join`, `os.path.basename` and `list.sort` on strings are written
out in the `Text`, `Paths` and `Order` modules.

The built-in exclusion list (`.git`, `node_modules`, `*.log`, …) holds
file patterns as well as directory names, but the code applies it only to
sub-directories (context.py:29). Files are checked against the user's
patterns alone (context.py:32), so `debug.log` is listed unless
`.gitignore` excludes it. `Tree.FileKept` and
`TreeFacts.BuiltinPatternsPruneOnlyDirectories` state this.

Other behaviour the model keeps as written:
- The root's own name is never printed: the first call has an empty prefix (context.py:37).
- Every top-level line starts with `│   ` (context.py:42 with `is_last` false).
- Only sub-directories whose name starts with `.` are dropped; dot files stay (context.py:28, 31).
- A `.gitignore` line counts as a comment only when it starts with `#` in column one, so an indented `  #x` becomes the pattern `#x` (context.py:13).

## Model

| member | source | states |
|---|---|---|
| Text.Strip | context.py:13 | the result is the input minus its leading and trailing white space: a trimmed slice with only white space around it, empty exactly when the input is all white space |
| Text.StripIdempotent | context.py:13 | stripping twice is stripping once |
| Text.StripOfPadded | context.py:64 | a trimmed core padded with white space strips back to the core |
| Text.Find | context.py:135-136 | `-1` exactly when the pattern does not occur from the start position on; otherwise the first occurrence at or after it |
| Text.BeforeFirst | context.py:64 | `split(sep)[0]`: a prefix of the input that ends where the separator first occurs, with no occurrence starting inside it, and the whole input exactly when the separator is absent |
| Text.BeforeFirstExactly | context.py:64 | a prefix of the input is `split(sep)[0]` exactly when it ends at an occurrence of the separator (or is the whole input) and no occurrence starts before its end |
| Text.JoinWith | context.py:65 | `sep.join(xs)`; its partner `Text.SplitJoinRoundTrip` states that splitting undoes it |
| Text.SplitOn | context.py:64 | `s.split(sep)`: at least one part, none holding the separator, each cut made at the leftmost separator (no separator starts inside a part that one follows), and joining the parts with the separator gives the input back |
| Text.BeforeFirstOfPin | context.py:64 | `pkg==ver` splits to `pkg` when `pkg` holds no `=` |
| Text.SplitJoinRoundTrip | context.py:65 | splitting a `', '`-joined list of parts that hold no `', '` gives the parts back |
| Paths.Join | context.py:29 | `os.path.join(dir, name)`; `Paths.BasenameOfJoin` states that the name comes back |
| Paths.Basename | context.py:20 | the last `/`-free component of a path |
| Paths.BasenameOfJoin | context.py:38 | the base name of `join(dir, name)` is `name` for a valid entry name |
| Order.Less | context.py:35 | code-point order on strings; `Order.LessTransitive`, `Order.LessTotal` and `Order.LessIrreflexive` make it a strict total order |
| Order.Sort | context.py:35 | the result is sorted by code point and is a permutation of the input |
| Order.SortedUnique | context.py:35 | two sorted permutations of each other are equal, so any sort gives the same list |
| Order.SortPermutationInvariant | context.py:34-35 | the sorted names do not depend on the order they were gathered in |
| Ignore.KeepLine | context.py:13 | the comprehension's condition; `Ignore.KeepLineExactly` states it as "not blank and not starting with `#`" |
| Ignore.IgnorePatterns | context.py:13 | every pattern is non-empty and equal to its own strip, and there are no more patterns than lines |
| Ignore.LoadPatterns | context.py:9-14 | no `.gitignore` gives no patterns |
| Ignore.IgnorePatternsSelectLines | context.py:13 | the patterns are the stripped kept lines, one per kept line, in file order |
| Ignore.IgnorePatternsAppend | context.py:13 | the patterns of two blocks of lines are the patterns of each, concatenated |
| Ignore.KeepLineExactly | context.py:13 | a line is kept exactly when it is not all white space and does not start with `#` |
| Ignore.IndentedHashKept | context.py:13 | an indented `#x` line is kept as the pattern `#x` |
| Ignore.IsIgnored | context.py:16-22 | true exactly when some pattern matches the path or its base name; false with no patterns |
| Ignore.IgnoredAppend | context.py:16-22 | testing against two lists of patterns is testing against either |
| Ignore.IgnoredOrderIndependent | context.py:16-22 | the verdict depends only on the set of patterns, not on their order |
| Tree.DirKept | context.py:28-29 | the directory filter; `TreeFacts.EntryListed` states which entries pass it |
| Tree.FileKept | context.py:31-32 | the file filter, with user patterns only; `TreeFacts.EntryListed` and `TreeFacts.BuiltinPatternsPruneOnlyDirectories` state it |
| Tree.KeptDirs | context.py:28-29 | the kept sub-directory names in listing order; `TreeFacts.NamesExactly` states their membership |
| Tree.KeptFiles | context.py:31-32 | the kept file names in listing order; `TreeFacts.NamesExactly` states their membership |
| Tree.Names | context.py:34-35 | `all_names` after sorting; `TreeFacts.NamesExactly` and `Order.SortPermutationInvariant` state its content and order |
| Tree.Render | context.py:24-50 | `get_directory_structure`; its properties are the `TreeFacts.RenderCount`, `TreeFacts.ItemFirstLine`, `TreeFacts.RenderPrefix`, `TreeFacts.RootListing`, `TreeFacts.ListingOrderIrrelevant` and `TreeOutline.RenderFollowsOutline` rows |
| Tree.NamesResolvable | context.py:44-48 | every sorted name is a kept file or names a sub-directory of the listing |
| TreeFacts.NamesExactly | context.py:28-35 | the names are sorted, and a name is among them exactly when a kept file or kept sub-directory carries it |
| TreeFacts.EntryListed | context.py:28-32 | an entry is listed exactly when it is a file no user pattern matches, or a sub-directory not starting with `.` that neither user nor built-in patterns match |
| TreeFacts.BuiltinPatternsPruneOnlyDirectories | context.py:26-32 | a built-in name prunes a sub-directory, while a file of that name is listed unless a user pattern matches it |
| TreeFacts.RenderCount | context.py:37-50 | one line for the directory itself when the prefix is non-empty, plus one per kept entry below it, counted recursively in listing order |
| TreeFacts.ItemFirstLine | context.py:41-45 | the first line of the i-th entry is the child prefix, then `└── ` if it is the last entry and `├── ` otherwise, then its name |
| TreeFacts.RenderPrefix | context.py:37-48 | every line starts with the prefix, and every line after the directory's own starts with the prefix and its continuation block |
| TreeFacts.RootListing | context.py:24-50 | from the top-level call the root is not printed: there is exactly one line per kept entry, each starting with `│   `, the first showing the first sorted name |
| TreeFacts.ListingOrderIrrelevant | context.py:28-35 | two listings with the same entries in any order render identically |
| TreeOutline.RenderFollowsOutline | context.py:37-48 | the lines correspond one for one to a pre-order walk of kept entries; an entry at depth d has its connector after exactly 4·(d+1) characters, then its name |
| Deps.RequirementName | context.py:64 | the stripped line up to its first `==`: a prefix that ends at an occurrence of `==` or is the whole stripped line, with no `==` starting inside it; the whole line exactly when it holds no `==` |
| Deps.RequirementNames | context.py:64 | one name per non-blank line; `Deps.RequirementNamesSelect` states which lines and in which order |
| Deps.PythonDependencies | context.py:65 | the names joined with `, `; `Deps.PythonDependenciesSplit` and `Deps.TwoPinsExample` state its content |
| Deps.RequirementNamesSelect | context.py:64 | one name per non-blank line, in file order |
| Deps.RequirementNamesHaveNoPins | context.py:64 | no extracted name holds `==` |
| Deps.RequirementNameOfPin | context.py:64 | a pin `pkg==ver` padded with any white space yields `pkg` |
| Deps.PythonDependenciesSplit | context.py:64-65 | the joined summary splits back into the names |
| Deps.TwoPinsExample | context.py:64-65 | lines `foo==1.0` and `bar==2.1` give `foo, bar` |
| Deps.Dependencies | context.py:53-87 | the table holds at most the three labels |
| Deps.Lookup | context.py:53-87 | a label is found exactly when the table holds it, and the value found is the one stored under its first entry |
| Deps.DependenciesTable | context.py:53-87 | each label is present exactly when its manifest was read, holding its joined names, in the order Python, Java, JavaScript/TypeScript |
| Llm.MarkerNoOverlap | context.py:135-136 | two occurrences of the marker never overlap, so the second search skips the whole first marker |
| Llm.ExtractContext | context.py:130-140 | an extract never contains the marker |
| Llm.ExtractNoneIff | context.py:135-140 | no extract exactly when fewer than two markers occur |
| Llm.FirstMarkerAt | context.py:135-136 | the search finds the first marker placed after marker-free text |
| Llm.EmbedRoundTrip | context.py:135-139 | text placed between two markers, after a marker-free preamble, comes back stripped |
| Cli.ParseCommand | context.py:144 | no argument means `all`; exactly the four choices are accepted |
| Cli.ParseRoundTrip | context.py:144 | each command is parsed from its own name, and a parsed name is the name of its command |
| Cli.LlmInfo | context.py:130-141 | a context is returned exactly when there is a README holding two markers, and it never holds the marker |
| Cli.Listing | context.py:157-158 | the root listing with the `.gitignore` patterns; `Cli.DirectorySection` states its length and prefix |
| Cli.Layout | context.py:152-167 | the sections printed for a command; `Cli.LayoutSections` states their order and presence |
| Cli.Snapshot | context.py:150-168 | the sections for a project; `Cli.SnapshotSections` and `Cli.AllCoversEveryCommand` state them |
| Cli.LayoutSections | context.py:152-167 | sections come in the fixed order, none twice; each is present exactly when the command selects it, the context only when non-empty, and then it holds the extract |
| Cli.SnapshotSections | context.py:150-168 | the same for the snapshot of a project, whose context section holds the README's extract |
| Cli.AllCoversEveryCommand | context.py:152-167 | `all` prints every section any other command prints |
| Cli.DirectorySection | context.py:157-160 | the directory section holds the root listing: one line per kept entry, each starting with `│   ` |

## Left out

- File I/O: `.gitignore`, `requirements.txt`, `README.md` and the directory listings are inputs (`Option` when the file may be missing).
- The `utf-8`/`utf-16` fallback for `requirements.txt` (context.py:60-68) is left out. Decoding is I/O; the model takes the decoded lines.
- `fnmatch.fnmatch` is a parameter `(name, pattern) -> bool`, because its shell-pattern language is a library outside this program.
- `pom.xml` and `package.json` parsing (context.py:71-85) are left out; the model takes the artifact ids and dependency names as lists. An `artifactId` with no text would make the join raise; this is not modelled.
- `get_recent_commits`, `get_command_output` and `get_environment_details` (context.py:89-128) run `git`, `java`, `node`, `tsc` and query the platform. Their sections appear in `Cli.Snapshot` only by presence.
- Printing is left out: the `---` lines, the heading text, the project name via `os.path.abspath`, and the `'\n'.join` of the listing (context.py:147-170). The dictionaries' printed form (`repr`) is not modelled.
- argparse's `rootdir` argument and its error exit are left out; a rejected command is `None`.
- File names that are not valid UTF-8: on Linux `os.listdir` gives them lone surrogate code points, which a Dafny `char` cannot hold, so such names are not representable.
- Symbolic-link cycles: a `Dir` is a finite tree, so a walk that would not end is not representable.
- A root that is not a directory makes `os.listdir` raise; the model's root is always a directory.
- Tree.Render: its properties need the listing to be well formed (`Tree.WellFormed`: distinct, non-empty, `/`-free names), as `os.listdir` guarantees.
- Cli.SnapshotSections: the content of the environment, dependency and commit sections is not stated, only their presence.

=== FILE: cli.dfy ===
/**
 The command dispatch of context.py `main`: which sections of the snapshot
 a command prints, in which order, and what the two sections computed by
 this model hold. The environment details, dependency table and commit log
 are shown only by their presence; their text comes from the platform, the
 manifests and `git`.
 */
module Cli {
  import opened Wrappers
  import opened Text
  import opened Ignore
  import opened Tree
  import opened TreeFacts
  import opened Llm

  /** The positional `command` argument. */
  datatype Command = DirCommand | EnvCommand | LlmCommand | AllCommand

  function CommandName(c: Command): string {
    match c
    case DirCommand => "dir"
    case EnvCommand => "env"
    case LlmCommand => "llm"
    case AllCommand => "all"
  }

  /** argparse's reading of the optional argument: `all` when absent, one of
      the four choices, or `None` for anything else (argparse then exits). */
  function ParseCommand(arg: Option<string>): (r: Option<Command>)
    ensures arg.None? ==> r == Some(AllCommand)
    ensures r.Some? <==> arg.None? || arg.value in ["dir", "env", "llm", "all"]
  {
    match arg
    case None => Some(AllCommand)
    case Some(s) =>
      if s == "dir" then Some(DirCommand)
      else if s == "env" then Some(EnvCommand)
      else if s == "llm" then Some(LlmCommand)
      else if s == "all" then Some(AllCommand)
      else None
  }

  /** Every command is reached by its own name, and a name that parses is
      the name of what it parses to. */
  lemma ParseRoundTrip(c: Command, s: string)
    ensures ParseCommand(Some(CommandName(c))) == Some(c)
    ensures ParseCommand(Some(s)).Some? ==> CommandName(ParseCommand(Some(s)).value) == s
  {
  }

  /** One titled block of the snapshot. */
  datatype Section =
    | ProjectContext(text: string)
    | DirectoryStructure(lines: seq<string>)
    | EnvironmentDetails
    | DependencyTable
    | RecentCommits

  /** Where a section is printed, counted from the top. */
  function Rank(s: Section): nat {
    match s
    case ProjectContext(_) => 0
    case DirectoryStructure(_) => 1
    case EnvironmentDetails => 2
    case DependencyTable => 3
    case RecentCommits => 4
  }

  /** What the file system holds for a project: the text of `README.md` and
      the lines of `.gitignore` when those exist, and the listing below the
      root directory. */
  datatype Project = Project(path: string, readme: Option<string>, gitignore: Option<seq<string>>, root: Dir)

  /** `get_llm_info`: nothing without a README, and otherwise a context
      exactly when the README holds two markers. */
  function LlmInfo(readme: Option<string>): (r: Option<string>)
    ensures r.Some? ==> readme.Some? && !Contains(r.value, Marker)
    ensures r.None? <==> readme.None? || !TwoMarkers(readme.value)
  {
    if readme.Some? then ExtractNoneIff(readme.value); ExtractContext(readme.value) else None
  }

  /** Whether a command selects a section, by rank. */
  predicate Selects(cmd: Command, rank: nat) {
    match rank
    case 0 => cmd == LlmCommand || cmd == AllCommand
    case 1 => cmd == DirCommand || cmd == AllCommand
    case 2 => cmd == EnvCommand || cmd == AllCommand
    case _ => cmd == AllCommand
  }

  /** The lines `get_directory_structure` gives for the project root, with
      the patterns read from its `.gitignore`. */
  function Listing(p: Project, m: Matcher): seq<string> {
    Render(p.path, p.root, LoadPatterns(p.gitignore), m, "", false)
  }

  /** The sections `main` prints between its two `---` lines, after the
      project name, from the extract and the listing. The context section
      needs a non-empty extract: an empty string is false in the
      `if llm_info:` test. */
  function Layout(cmd: Command, info: Option<string>, listing: seq<string>): (r: seq<Section>)
    ensures |r| <= 5
  {
    (if Selects(cmd, 0) && info.Some? && info.value != "" then [ProjectContext(info.value)] else [])
    + (if Selects(cmd, 1) then [DirectoryStructure(listing)] else [])
    + (if Selects(cmd, 2) then [EnvironmentDetails] else [])
    + (if Selects(cmd, 3) then [DependencyTable, RecentCommits] else [])
  }

  function Snapshot(cmd: Command, p: Project, m: Matcher): seq<Section> {
    Layout(cmd, LlmInfo(p.readme), Listing(p, m))
  }

  /** The snapshot holds a section of rank `n`. */
  predicate HasSection(r: seq<Section>, n: nat) {
    exists k :: 0 <= k < |r| && Rank(r[k]) == n
  }

  lemma HasSectionAppend(a: seq<Section>, b: seq<Section>, n: nat)
    ensures HasSection(a + b, n) <==> HasSection(a, n) || HasSection(b, n)
  {
    if HasSection(b, n) {
      var k :| 0 <= k < |b| && Rank(b[k]) == n;
      assert (a + b)[|a| + k] == b[k];
    }
    if HasSection(a, n) {
      var k :| 0 <= k < |a| && Rank(a[k]) == n;
      assert (a + b)[k] == a[k];
    }
  }

  /** Sections come in the fixed order and none is repeated; each of the last
      four is present exactly when the command selects it, and the context
      section, holding the extract, exactly when the command selects it and
      the extract is non-empty. */
  lemma LayoutSections(cmd: Command, info: Option<string>, listing: seq<string>)
    ensures forall k, l :: 0 <= k < l < |Layout(cmd, info, listing)| ==>
      Rank(Layout(cmd, info, listing)[k]) < Rank(Layout(cmd, info, listing)[l])
    ensures HasSection(Layout(cmd, info, listing), 0) <==> Selects(cmd, 0) && info.Some? && info.value != ""
    ensures HasSection(Layout(cmd, info, listing), 0) ==> Layout(cmd, info, listing)[0] == ProjectContext(info.value)
    ensures forall n :: 1 <= n <= 4 ==> (HasSection(Layout(cmd, info, listing), n) <==> Selects(cmd, n))
  {
    forall n: nat ensures HasSection(Layout(cmd, info, listing), n) <==> PartHas(cmd, info, n) {
      LayoutHas(cmd, info, listing, n);
    }
  }

  /** Which part of the layout can hold a section of rank `n`. */
  predicate PartHas(cmd: Command, info: Option<string>, n: nat) {
    if n == 0 then Selects(cmd, 0) && info.Some? && info.value != ""
    else n <= 4 && Selects(cmd, n)
  }

  lemma LayoutHas(cmd: Command, info: Option<string>, listing: seq<string>, n: nat)
    ensures HasSection(Layout(cmd, info, listing), n) <==> PartHas(cmd, info, n)
  {
    var c: seq<Section> := if Selects(cmd, 0) && info.Some? && info.value != "" then [ProjectContext(info.value)] else [];
    var d: seq<Section> := if Selects(cmd, 1) then [DirectoryStructure(listing)] else [];
    var e: seq<Section> := if Selects(cmd, 2) then [EnvironmentDetails] else [];
    var t: seq<Section> := if Selects(cmd, 3) then [DependencyTable, RecentCommits] else [];
    assert Layout(cmd, info, listing) == c + d + e + t;
    HasSectionAppend(c + d + e, t, n);
    HasSectionAppend(c + d, e, n);
    HasSectionAppend(c, d, n);
    assert HasSection(c, n) <==> c != [] && n == 0 by { if c != [] { assert Rank(c[0]) == 0; } }
    assert HasSection(d, n) <==> Selects(cmd, 1) && n == 1 by { if d != [] { assert Rank(d[0]) == 1; } }
    assert HasSection(e, n) <==> Selects(cmd, 2) && n == 2 by { if e != [] { assert Rank(e[0]) == 2; } }
    assert HasSection(t, n) <==> Selects(cmd, 3) && (n == 3 || n == 4) by {
      if t != [] { assert Rank(t[0]) == 3 && Rank(t[1]) == 4; }
    }
  }

  /** The same, for the sections a project's snapshot holds. */
  lemma SnapshotSections(cmd: Command, p: Project, m: Matcher)
    ensures forall k, l :: 0 <= k < l < |Snapshot(cmd, p, m)| ==>
      Rank(Snapshot(cmd, p, m)[k]) < Rank(Snapshot(cmd, p, m)[l])
    ensures HasSection(Snapshot(cmd, p, m), 0) <==>
      Selects(cmd, 0) && LlmInfo(p.readme).Some? && LlmInfo(p.readme).value != ""
    ensures HasSection(Snapshot(cmd, p, m), 0) ==> Snapshot(cmd, p, m)[0] == ProjectContext(LlmInfo(p.readme).value)
    ensures forall n :: 1 <= n <= 4 ==> (HasSection(Snapshot(cmd, p, m), n) <==> Selects(cmd, n))
  {
    LayoutSections(cmd, LlmInfo(p.readme), Listing(p, m));
  }

  /** `all` prints every section that any other command prints. */
  lemma AllCoversEveryCommand(cmd: Command, p: Project, m: Matcher)
    ensures forall k :: 0 <= k < |Snapshot(cmd, p, m)| ==> Snapshot(cmd, p, m)[k] in Snapshot(AllCommand, p, m)
  {
  }

  /** The directory section of a well-formed project lists one line per kept
      entry below the root, each behind the `│   ` every top-level line
      carries. */
  lemma DirectorySection(cmd: Command, p: Project, m: Matcher)
    requires WellFormed(p.root) && Selects(cmd, 1)
    ensures DirectoryStructure(Listing(p, m)) in Snapshot(cmd, p, m)
    ensures |Listing(p, m)| == KeptCount(p.path, p.root, LoadPatterns(p.gitignore), m)
    ensures forall l :: l in Listing(p, m) ==> StartsWith(l, Bar)
  {
    RootListing(p.path, p.root, LoadPatterns(p.gitignore), m);
  }
}

=== FILE: deps.dfy ===
/**
 The dependency summary (context.py `get_dependencies`): the package names
 of a `requirements.txt`, and the label-to-list table that collects them with
 the Maven artifact ids and the npm dependency names.
 */
module Deps {
  import opened Wrappers
  import opened Text
  import opened Lists

  /** A requirements line counts when it is not blank after stripping. */
  predicate NonBlank(line: string) {
    Strip(line) != ""
  }

  /** `line.strip().split('==')[0]`: the stripped line up to its first `==`.
      Nothing is stripped afterwards, so `"foo == 1"` gives `"foo "`. */
  function RequirementName(line: string): (name: string)
    ensures |name| <= |Strip(line)| && Strip(line)[..|name|] == name
    ensures !Contains(name, "==")
    ensures name == Strip(line) || OccursAt(Strip(line), "==", |name|)
    ensures forall i :: 0 <= i < |name| ==> !OccursAt(Strip(line), "==", i)
    ensures name == Strip(line) <==> !Contains(Strip(line), "==")
  {
    BeforeFirst(Strip(line), "==")
  }

  /** The names of the non-blank lines, in file order. Comment lines are not
      recognised: `# pinned` is a name like any other. */
  function RequirementNames(lines: seq<string>): (names: seq<string>)
    ensures |names| <= |lines|
  {
    FilterMap(lines, NonBlank, RequirementName)
  }

  /** `', '.join(python_deps)`. */
  function PythonDependencies(lines: seq<string>): string {
    JoinWith(RequirementNames(lines), ", ")
  }

  /** One name per non-blank line, in order: an increasing selection of
      line indices covering every non-blank line, whose names are the
      result. */
  lemma RequirementNamesSelect(lines: seq<string>) returns (idx: seq<nat>)
    ensures |idx| == |RequirementNames(lines)|
    ensures forall k :: 0 <= k < |idx| ==>
      idx[k] < |lines| && NonBlank(lines[idx[k]]) && RequirementNames(lines)[k] == RequirementName(lines[idx[k]])
    ensures forall k, l :: 0 <= k < l < |idx| ==> idx[k] < idx[l]
    ensures forall i :: 0 <= i < |lines| && NonBlank(lines[i]) ==> i in idx
  {
    idx := FilterMapSelects(lines, NonBlank, RequirementName);
  }

  /** No extracted name holds `==`. */
  lemma RequirementNamesHaveNoPins(lines: seq<string>)
    ensures forall k :: 0 <= k < |RequirementNames(lines)| ==> !Contains(RequirementNames(lines)[k], "==")
  {
    var idx := RequirementNamesSelect(lines);
  }

  /** The joined summary splits back into the names when there is at least
      one and none of them holds `", "`. */
  lemma PythonDependenciesSplit(lines: seq<string>)
    requires |RequirementNames(lines)| >= 1
    requires forall k :: 0 <= k < |RequirementNames(lines)| ==> !Contains(RequirementNames(lines)[k], ", ")
    ensures SplitOn(PythonDependencies(lines), ", ") == RequirementNames(lines)
  {
    SplitJoinRoundTrip(RequirementNames(lines));
  }

  /** A pinned requirement `pkg==ver`, however padded with white space,
      yields `pkg` when `pkg` holds no `=`. */
  lemma RequirementNameOfPin(pre: string, pkg: string, ver: string, post: string)
    requires AllSpace(pre) && AllSpace(post)
    requires '=' !in pkg && Trimmed(pkg + "==" + ver)
    ensures RequirementName(pre + pkg + "==" + ver + post) == pkg
  {
    var core := pkg + "==" + ver;
    assert Strip(pre + pkg + "==" + ver + post) == core by {
      assert pre + pkg + "==" + ver + post == pre + core + post;
      StripOfPadded(pre, core, post);
    }
    BeforeFirstOfPin(pkg, ver);
  }

  /** The summary of a file holding `foo==1.0` and `bar==2.1` is `"foo, bar"`. */
  lemma TwoPinsExample()
    ensures PythonDependencies(["foo==1.0", "bar==2.1"]) == "foo" + ", " + "bar"
  {
    var names: seq<string> := ["foo", "bar"];
    TwoPinsNames();
    assert names[1..] == ["bar"];
  }

  lemma TwoPinsNames()
    ensures RequirementNames(["foo==1.0", "bar==2.1"]) == ["foo", "bar"]
  {
    FooPin();
    BarPin();
    TwoLines("foo==1.0", "bar==2.1");
  }

  /** Two kept lines give their two names, in order. */
  lemma TwoLines(a: string, b: string)
    requires NonBlank(a) && NonBlank(b)
    ensures RequirementNames([a, b]) == [RequirementName(a), RequirementName(b)]
  {
    assert [a, b] == [a] + [b];
    FilterMapAppend([a], [b], NonBlank, RequirementName);
    FilterMapSingle(a, NonBlank, RequirementName);
    FilterMapSingle(b, NonBlank, RequirementName);
  }

  lemma FooPin()
    ensures NonBlank("foo==1.0") && RequirementName("foo==1.0") == "foo"
  {
    var a := "foo" + "==" + "1.0";
    assert a == "foo==1.0";
    assert a[0] == 'f' && a[|a| - 1] == '0';
    PinLine("foo", "1.0");
  }

  lemma BarPin()
    ensures NonBlank("bar==2.1") && RequirementName("bar==2.1") == "bar"
  {
    var b := "bar" + "==" + "2.1";
    assert b == "bar==2.1";
    assert b[0] == 'b' && b[|b| - 1] == '1';
    PinLine("bar", "2.1");
  }

  /** An unpadded pin line is kept and yields its package name. */
  lemma PinLine(pkg: string, ver: string)
    requires '=' !in pkg && Trimmed(pkg + "==" + ver)
    ensures NonBlank(pkg + "==" + ver) && RequirementName(pkg + "==" + ver) == pkg
  {
    StripTrimmed(pkg + "==" + ver);
    BeforeFirstOfPin(pkg, ver);
  }

  /** What the three manifests yield once read: the lines of
      `requirements.txt` when it exists and decodes, the artifact ids of
      `pom.xml` and the dependency names of `package.json` when those
      files exist. */
  datatype Manifests = Manifests(
    requirements: Option<seq<string>>,
    artifactIds: Option<seq<string>>,
    packageNames: Option<seq<string>>)

  const PythonLabel: string := "Python"
  const JavaLabel: string := "Java"
  const ScriptLabel: string := "JavaScript/TypeScript"

  /** The `dependencies` dictionary, as its items in insertion order. */
  function Dependencies(mf: Manifests): (d: seq<(string, string)>)
    ensures |d| <= 3
  {
    PythonPart(mf) + JavaPart(mf) + ScriptPart(mf)
  }

  /** The value stored under `key`, if any. */
  function Lookup(d: seq<(string, string)>, key: string): (r: Option<string>)
    ensures r.Some? <==> exists k :: 0 <= k < |d| && d[k].0 == key
    ensures r.Some? ==> exists k :: 0 <= k < |d| && d[k] == (key, r.value) && forall j :: 0 <= j < k ==> d[j].0 != key
  {
    if d == [] then None
    else if d[0].0 == key then Some(d[0].1)
    else
      var r := Lookup(d[1..], key);
      assert forall k :: 1 <= k < |d| ==> d[k] == d[1..][k - 1];
      assert r.Some? ==> exists k :: 1 <= k < |d| && d[k] == (key, r.value) && forall j :: 0 <= j < k ==> d[j].0 != key by {
        if r.Some? {
          var k :| 0 <= k < |d[1..]| && d[1..][k] == (key, r.value) && forall j :: 0 <= j < k ==> d[1..][j].0 != key;
          assert d[k + 1] == (key, r.value);
          assert forall j :: 1 <= j < k + 1 ==> d[j].0 != key by {
            forall j | 1 <= j < k + 1 ensures d[j].0 != key { assert d[j] == d[1..][j - 1]; }
          }
        }
      }
      r
  }

  /** Each label is present exactly when its manifest was read, holds that
      manifest's joined names, and the labels come in the fixed order
      Python, Java, JavaScript/TypeScript. */
  lemma DependenciesTable(mf: Manifests)
    ensures Lookup(Dependencies(mf), PythonLabel)
      == (if mf.requirements.Some? then Some(PythonDependencies(mf.requirements.value)) else None)
    ensures Lookup(Dependencies(mf), JavaLabel)
      == (if mf.artifactIds.Some? then Some(JoinWith(mf.artifactIds.value, ", ")) else None)
    ensures Lookup(Dependencies(mf), ScriptLabel)
      == (if mf.packageNames.Some? then Some(JoinWith(mf.packageNames.value, ", ")) else None)
    ensures forall k, l :: 0 <= k < l < |Dependencies(mf)| ==> LabelRank(Dependencies(mf)[k].0) < LabelRank(Dependencies(mf)[l].0)
  {
    PythonEntry(mf);
    JavaEntry(mf);
    ScriptEntry(mf);
    DependenciesOrdered(mf);
  }

  lemma PythonEntry(mf: Manifests)
    ensures Lookup(Dependencies(mf), PythonLabel)
      == (if mf.requirements.Some? then Some(PythonDependencies(mf.requirements.value)) else None)
  {
    var p, j, s := PythonPart(mf), JavaPart(mf), ScriptPart(mf);
    assert Dependencies(mf) == p + (j + s);
    LabelsDistinct();
    LookupAppend(p, j + s, PythonLabel);
    LookupAppend(j, s, PythonLabel);
    LookupPart(p, PythonLabel);
    LookupPart(j, PythonLabel);
    LookupPart(s, PythonLabel);
  }

  lemma JavaEntry(mf: Manifests)
    ensures Lookup(Dependencies(mf), JavaLabel)
      == (if mf.artifactIds.Some? then Some(JoinWith(mf.artifactIds.value, ", ")) else None)
  {
    var p, j, s := PythonPart(mf), JavaPart(mf), ScriptPart(mf);
    assert Dependencies(mf) == p + (j + s);
    LabelsDistinct();
    LookupAppend(p, j + s, JavaLabel);
    LookupAppend(j, s, JavaLabel);
    LookupPart(p, JavaLabel);
    LookupPart(j, JavaLabel);
    LookupPart(s, JavaLabel);
  }

  lemma ScriptEntry(mf: Manifests)
    ensures Lookup(Dependencies(mf), ScriptLabel)
      == (if mf.packageNames.Some? then Some(JoinWith(mf.packageNames.value, ", ")) else None)
  {
    var p, j, s := PythonPart(mf), JavaPart(mf), ScriptPart(mf);
    assert Dependencies(mf) == p + (j + s);
    LabelsDistinct();
    LookupAppend(p, j + s, ScriptLabel);
    LookupAppend(j, s, ScriptLabel);
    LookupPart(p, ScriptLabel);
    LookupPart(j, ScriptLabel);
    LookupPart(s, ScriptLabel);
  }

  lemma DependenciesOrdered(mf: Manifests)
    ensures forall k, l :: 0 <= k < l < |Dependencies(mf)| ==> LabelRank(Dependencies(mf)[k].0) < LabelRank(Dependencies(mf)[l].0)
  {
    LabelsDistinct();
  }

  function PythonPart(mf: Manifests): seq<(string, string)> {
    if mf.requirements.Some? then [(PythonLabel, PythonDependencies(mf.requirements.value))] else []
  }

  function JavaPart(mf: Manifests): seq<(string, string)> {
    if mf.artifactIds.Some? then [(JavaLabel, JoinWith(mf.artifactIds.value, ", "))] else []
  }

  function ScriptPart(mf: Manifests): seq<(string, string)> {
    if mf.packageNames.Some? then [(ScriptLabel, JoinWith(mf.packageNames.value, ", "))] else []
  }

  lemma LabelsDistinct()
    ensures PythonLabel != JavaLabel && PythonLabel != ScriptLabel && JavaLabel != ScriptLabel
  {
    assert PythonLabel[0] != JavaLabel[0] && PythonLabel[0] != ScriptLabel[0];
    assert |JavaLabel| != |ScriptLabel|;
  }

  /** Looking up in a table of at most one entry. */
  lemma LookupPart(d: seq<(string, string)>, key: string)
    requires |d| <= 1
    ensures Lookup(d, key) == if d != [] && d[0].0 == key then Some(d[0].1) else None
  {
  }

  /** Position of a label in the fixed order. */
  function LabelRank(key: string): nat {
    if key == PythonLabel then 0 else if key == JavaLabel then 1 else 2
  }

  lemma LookupAppend(a: seq<(string, string)>, b: seq<(string, string)>, key: string)
    ensures Lookup(a + b, key) == if Lookup(a, key).Some? then Lookup(a, key) else Lookup(b, key)
  {
    if a != [] {
      assert (a + b)[1..] == a[1..] + b;
      LookupAppend(a[1..], b, key);
    } else {
      assert a + b == b;
    }
  }
}

=== FILE: ignore.dfy ===
/**
 Ignore patterns: reading them from the lines of a `.gitignore` file
 (context.py `get_gitignore_patterns`) and testing a path against them
 (context.py `is_ignored`). The glob matcher `fnmatch.fnmatch` is a
 parameter: any total function from (name, pattern) to a verdict.
 */
module Ignore {
  import opened Wrappers
  import opened Text
  import opened Paths
  import opened Lists

  /** `fnmatch.fnmatch(name, pattern)`, left uninterpreted. */
  type Matcher = (string, string) -> bool

  /** A line of the ignore file contributes a pattern when it is not blank
      after stripping and its raw (unstripped) first character is not `#`. */
  predicate KeepLine(line: string) {
    Strip(line) != "" && !StartsWith(line, "#")
  }

  /** The list comprehension over the file's lines: the stripped form of
      every kept line, in file order. */
  function IgnorePatterns(lines: seq<string>): (pats: seq<string>)
    ensures |pats| <= |lines|
    ensures forall k :: 0 <= k < |pats| ==> pats[k] != "" && Strip(pats[k]) == pats[k]
  {
    var pats := FilterMap(lines, KeepLine, Strip);
    var idx := KeptIndices(lines, KeepLine, 0);
    assert lines[0..] == lines;
    FilterMapAtIndices(lines, KeepLine, Strip, 0);
    assert forall k :: 0 <= k < |pats| ==> pats[k] != "" && Strip(pats[k]) == pats[k] by {
      forall k | 0 <= k < |pats| ensures pats[k] != "" && Strip(pats[k]) == pats[k] {
        StripIdempotent(lines[idx[k]]);
      }
    }
    pats
  }

  /** No ignore file means no patterns; otherwise the file's lines are filtered. */
  function LoadPatterns(file: Option<seq<string>>): (pats: seq<string>)
    ensures file.None? ==> pats == []
    ensures file.Some? ==> pats == IgnorePatterns(file.value)
  {
    match file
    case None => []
    case Some(lines) => IgnorePatterns(lines)
  }

  /** The patterns are exactly the stripped kept lines, in file order: an
      increasing selection of line indices, covering every kept line, whose
      stripped lines are the patterns. */
  lemma IgnorePatternsSelectLines(lines: seq<string>) returns (idx: seq<nat>)
    ensures |idx| == |IgnorePatterns(lines)|
    ensures forall k :: 0 <= k < |idx| ==>
      idx[k] < |lines| && KeepLine(lines[idx[k]]) && IgnorePatterns(lines)[k] == Strip(lines[idx[k]])
    ensures forall k, l :: 0 <= k < l < |idx| ==> idx[k] < idx[l]
    ensures forall i :: 0 <= i < |lines| && KeepLine(lines[i]) ==> i in idx
  {
    idx := FilterMapSelects(lines, KeepLine, Strip);
  }

  /** Patterns of a concatenation of files are the concatenated patterns. */
  lemma IgnorePatternsAppend(a: seq<string>, b: seq<string>)
    ensures IgnorePatterns(a + b) == IgnorePatterns(a) + IgnorePatterns(b)
  {
    FilterMapAppend(a, b, KeepLine, Strip);
  }

  /** A line is dropped exactly when it is blank or its raw first character
      is `#`. */
  lemma KeepLineExactly(line: string)
    ensures KeepLine(line) <==> !AllSpace(line) && line[0] != '#'
  {
  }

  /** Only a `#` in the very first column marks a comment: a line indented by
      white space keeps its `#`, so "  #x" yields the pattern "#x". */
  lemma IndentedHashKept(indent: string, text: string)
    requires indent != [] && AllSpace(indent)
    requires text != [] && Trimmed(text)
    ensures IgnorePatterns([indent + text]) == [text]
  {
    IndentedLine(indent, text);
    SingleLine(indent + text);
  }

  /** An indented line is kept, and strips to its text. */
  lemma IndentedLine(indent: string, text: string)
    requires indent != [] && AllSpace(indent) && Trimmed(text)
    ensures Strip(indent + text) == text && !StartsWith(indent + text, "#")
  {
    var line := indent + text;
    assert line == indent + text + "";
    StripOfPadded(indent, text, "");
    assert line[0] == indent[0] && IsSpace(indent[0]);
    assert "#"[0] == '#';
  }

  /** A one-line file gives that line's pattern when the line is kept. */
  lemma SingleLine(line: string)
    requires KeepLine(line)
    ensures IgnorePatterns([line]) == [Strip(line)]
  {
    FilterMapSingle(line, KeepLine, Strip);
  }

  /** `is_ignored(path, patterns)`: some pattern matches the full path or
      its basename. */
  function IsIgnored(path: string, pats: seq<string>, m: Matcher): (b: bool)
    ensures b <==> exists i :: 0 <= i < |pats| && (m(path, pats[i]) || m(Basename(path), pats[i]))
  {
    if pats == [] then false
    else if m(path, pats[0]) then true
    else if m(Basename(path), pats[0]) then true
    else
      var b := IsIgnored(path, pats[1..], m);
      assert forall i :: 1 <= i < |pats| ==> pats[i] == pats[1..][i - 1];
      assert forall i :: 0 <= i < |pats[1..]| ==> pats[1..][i] == pats[i + 1];
      b
  }

  /** Testing against a concatenation of pattern lists is testing against
      either list. */
  lemma IgnoredAppend(path: string, a: seq<string>, b: seq<string>, m: Matcher)
    ensures IsIgnored(path, a + b, m) == (IsIgnored(path, a, m) || IsIgnored(path, b, m))
  {
    if IsIgnored(path, a + b, m) {
      var i :| 0 <= i < |a + b| && (m(path, (a + b)[i]) || m(Basename(path), (a + b)[i]));
      if i >= |a| { assert (a + b)[i] == b[i - |a|]; }
    }
    if IsIgnored(path, a, m) {
      var i :| 0 <= i < |a| && (m(path, a[i]) || m(Basename(path), a[i]));
      assert (a + b)[i] == a[i];
    }
    if IsIgnored(path, b, m) {
      var i :| 0 <= i < |b| && (m(path, b[i]) || m(Basename(path), b[i]));
      var j := |a| + i;
      assert (a + b)[j] == b[i];
      assert 0 <= j < |a + b| && (m(path, (a + b)[j]) || m(Basename(path), (a + b)[j]));
    }
  }

  /** The verdict depends on the set of patterns only: neither their order nor
      repetitions matter. */
  lemma IgnoredOrderIndependent(path: string, a: seq<string>, b: seq<string>, m: Matcher)
    requires forall p :: p in a <==> p in b
    ensures IsIgnored(path, a, m) == IsIgnored(path, b, m)
  {
    if IsIgnored(path, a, m) {
      var i :| 0 <= i < |a| && (m(path, a[i]) || m(Basename(path), a[i]));
      assert a[i] in b;
      var j :| 0 <= j < |b| && b[j] == a[i];
    }
    if IsIgnored(path, b, m) {
      var j :| 0 <= j < |b| && (m(path, b[j]) || m(Basename(path), b[j]));
      assert b[j] in a;
      var i :| 0 <= i < |a| && a[i] == b[j];
    }
  }
}

=== FILE: lists.dfy ===
/**
 The list comprehension `[f(x) for x in s if keep(x)]`, which the tool uses
 for its ignore file and its requirements file, with the facts that pin it
 down: it is a homomorphism for concatenation, and its result is `f` applied
 to an increasing selection of indices that covers every kept element.
 */
module Lists {

  function FilterMap<T, U>(s: seq<T>, keep: T -> bool, f: T -> U): (r: seq<U>)
    ensures |r| <= |s|
  {
    if s == [] then []
    else (if keep(s[0]) then [f(s[0])] else []) + FilterMap(s[1..], keep, f)
  }

  /** A one-element list keeps its element or drops it. */
  lemma FilterMapSingle<T, U>(x: T, keep: T -> bool, f: T -> U)
    ensures FilterMap([x], keep, f) == if keep(x) then [f(x)] else []
  {
    var none: seq<T> := [];
    assert [x][1..] == none;
  }

  /** `idx` lists, in increasing order, exactly the indices of the kept
      elements of `s`, and `r` is `f` of those elements. */
  ghost predicate Selects<T, U>(s: seq<T>, keep: T -> bool, f: T -> U, r: seq<U>, idx: seq<nat>) {
    && |idx| == |r|
    && (forall k :: 0 <= k < |idx| ==> idx[k] < |s| && keep(s[idx[k]]) && r[k] == f(s[idx[k]]))
    && (forall k, l :: 0 <= k < l < |idx| ==> idx[k] < idx[l])
    && (forall i :: 0 <= i < |s| && keep(s[i]) ==> i in idx)
  }

  lemma {:induction false} FilterMapAppend<T, U>(a: seq<T>, b: seq<T>, keep: T -> bool, f: T -> U)
    ensures FilterMap(a + b, keep, f) == FilterMap(a, keep, f) + FilterMap(b, keep, f)
    decreases |a|
  {
    if a == [] {
      assert a + b == b;
    } else {
      var h := if keep(a[0]) then [f(a[0])] else [];
      assert FilterMap(a + b, keep, f) == h + FilterMap(a[1..] + b, keep, f) by {
        assert (a + b)[1..] == a[1..] + b;
      }
      FilterMapAppend(a[1..], b, keep, f);
    }
  }

  /** The indices at or after `from` of the elements `keep` accepts, in
      increasing order. */
  function KeptIndices<T>(s: seq<T>, keep: T -> bool, from: nat): (idx: seq<nat>)
    ensures forall k :: 0 <= k < |idx| ==> from <= idx[k] < |s| && keep(s[idx[k]])
    decreases |s| - from
  {
    if from >= |s| then []
    else
      var rest := KeptIndices(s, keep, from + 1);
      if keep(s[from]) then
        var idx := [from] + rest;
        assert forall k :: 1 <= k < |idx| ==> idx[k] == rest[k - 1];
        idx
      else rest
  }

  lemma {:induction false} KeptIndicesIncreasing<T>(s: seq<T>, keep: T -> bool, from: nat)
    ensures forall k, l :: 0 <= k < l < |KeptIndices(s, keep, from)| ==>
      KeptIndices(s, keep, from)[k] < KeptIndices(s, keep, from)[l]
    decreases |s| - from
  {
    if from < |s| {
      KeptIndicesIncreasing(s, keep, from + 1);
      var rest := KeptIndices(s, keep, from + 1);
      if keep(s[from]) {
        var idx := [from] + rest;
        forall k, l | 0 <= k < l < |idx| ensures idx[k] < idx[l] {
          assert idx[l] == rest[l - 1];
          if k > 0 { assert idx[k] == rest[k - 1]; }
        }
      }
    }
  }

  lemma {:induction false} KeptIndicesCover<T>(s: seq<T>, keep: T -> bool, from: nat)
    ensures forall i :: from <= i < |s| && keep(s[i]) ==> i in KeptIndices(s, keep, from)
    decreases |s| - from
  {
    if from < |s| {
      KeptIndicesCover(s, keep, from + 1);
      var rest := KeptIndices(s, keep, from + 1);
      forall i | from < i < |s| && keep(s[i]) ensures i in KeptIndices(s, keep, from) {
        assert i in rest;
      }
    }
  }

  lemma {:induction false} FilterMapAtIndices<T, U>(s: seq<T>, keep: T -> bool, f: T -> U, from: nat)
    requires from <= |s|
    ensures |KeptIndices(s, keep, from)| == |FilterMap(s[from..], keep, f)|
    ensures forall k :: 0 <= k < |KeptIndices(s, keep, from)| ==>
      FilterMap(s[from..], keep, f)[k] == f(s[KeptIndices(s, keep, from)[k]])
    decreases |s| - from
  {
    if from < |s| {
      FilterMapAtIndices(s, keep, f, from + 1);
      assert s[from..][1..] == s[from + 1..];
    }
  }

  /** The comprehension keeps exactly the elements `keep` accepts, maps them
      with `f`, and preserves their order. */
  lemma FilterMapSelects<T, U>(s: seq<T>, keep: T -> bool, f: T -> U) returns (idx: seq<nat>)
    ensures Selects(s, keep, f, FilterMap(s, keep, f), idx)
  {
    idx := KeptIndices(s, keep, 0);
    KeptIndicesIncreasing(s, keep, 0);
    KeptIndicesCover(s, keep, 0);
    FilterMapAtIndices(s, keep, f, 0);
    assert s[0..] == s;
  }

  /** Every element of the comprehension comes from a kept element. */
  lemma FilterMapMember<T, U>(s: seq<T>, keep: T -> bool, f: T -> U, x: U)
    requires x in FilterMap(s, keep, f)
    ensures exists i :: 0 <= i < |s| && keep(s[i]) && f(s[i]) == x
  {
    var idx := FilterMapSelects(s, keep, f);
    var k :| 0 <= k < |FilterMap(s, keep, f)| && FilterMap(s, keep, f)[k] == x;
    assert keep(s[idx[k]]) && f(s[idx[k]]) == x;
  }

  /** Every kept element appears, mapped, in the comprehension. */
  lemma FilterMapHas<T, U>(s: seq<T>, keep: T -> bool, f: T -> U, i: nat)
    requires i < |s| && keep(s[i])
    ensures f(s[i]) in FilterMap(s, keep, f)
  {
    var idx := FilterMapSelects(s, keep, f);
    assert i in idx;
    var k :| 0 <= k < |idx| && idx[k] == i;
    assert FilterMap(s, keep, f)[k] == f(s[i]);
  }

  /** Sum of `w` over the elements of `s`. */
  function SumOf<T>(s: seq<T>, w: T -> nat): nat {
    if s == [] then 0 else w(s[0]) + SumOf(s[1..], w)
  }

  lemma {:induction false} SumOfAppend<T>(a: seq<T>, b: seq<T>, w: T -> nat)
    ensures SumOf(a + b, w) == SumOf(a, w) + SumOf(b, w)
    decreases |a|
  {
    if a == [] {
      assert a + b == b;
    } else {
      assert (a + b)[1..] == a[1..] + b;
      SumOfAppend(a[1..], b, w);
    }
  }

  /** Taking one term out of a sum. */
  lemma SumOfRemove<T>(b: seq<T>, j: nat, w: T -> nat)
    requires j < |b|
    ensures SumOf(b, w) == w(b[j]) + SumOf(b[..j] + b[j + 1..], w)
  {
    assert b == b[..j] + ([b[j]] + b[j + 1..]);
    SumOfAppend(b[..j], [b[j]] + b[j + 1..], w);
    assert ([b[j]] + b[j + 1..])[1..] == b[j + 1..];
    SumOfAppend(b[..j], b[j + 1..], w);
  }

  lemma MultisetRemove<T>(b: seq<T>, j: nat)
    requires j < |b|
    ensures multiset(b[..j] + b[j + 1..]) == multiset(b) - multiset{b[j]}
  {
    assert b == b[..j] + [b[j]] + b[j + 1..];
  }

  /** A sum does not depend on the order of its terms. */
  lemma {:induction false} SumOfPermutation<T>(a: seq<T>, b: seq<T>, w: T -> nat)
    requires multiset(a) == multiset(b)
    ensures SumOf(a, w) == SumOf(b, w)
    decreases |a|
  {
    if a == [] {
      assert |b| == |multiset(b)| == 0;
    } else {
      var x := a[0];
      assert x in multiset(b);
      var j :| 0 <= j < |b| && b[j] == x;
      var b' := b[..j] + b[j + 1..];
      assert a == [x] + a[1..];
      assert multiset(a[1..]) == multiset(a) - multiset{x};
      MultisetRemove(b, j);
      SumOfPermutation(a[1..], b', w);
      SumOfRemove(b, j, w);
    }
  }

  /** Summing over a comprehension is summing, over the whole list, the
      weight of each kept element and nothing for the others. */
  lemma {:induction false} SumOfFilterMap<T, U>(s: seq<T>, keep: T -> bool, f: T -> U, w: U -> nat, g: T -> nat)
    requires forall i :: 0 <= i < |s| ==> g(s[i]) == (if keep(s[i]) then w(f(s[i])) else 0)
    ensures SumOf(FilterMap(s, keep, f), w) == SumOf(s, g)
    decreases |s|
  {
    if s != [] {
      var head := if keep(s[0]) then [f(s[0])] else [];
      assert forall i :: 0 <= i < |s[1..]| ==> s[1..][i] == s[i + 1];
      SumOfFilterMap(s[1..], keep, f, w, g);
      SumOfAppend(head, FilterMap(s[1..], keep, f), w);
      if keep(s[0]) {
        var none: seq<U> := [];
        assert head[1..] == none;
      }
    }
  }

  /** Sums add up term by term. */
  lemma {:induction false} SumOfPointwise<T>(s: seq<T>, a: T -> nat, b: T -> nat, c: T -> nat)
    requires forall i :: 0 <= i < |s| ==> a(s[i]) + b(s[i]) == c(s[i])
    ensures SumOf(s, a) + SumOf(s, b) == SumOf(s, c)
    decreases |s|
  {
    if s != [] {
      assert forall i :: 0 <= i < |s[1..]| ==> s[1..][i] == s[i + 1];
      SumOfPointwise(s[1..], a, b, c);
    }
  }

  /** Taking one element out of a list takes its image out of the
      comprehension. */
  lemma FilterMapRemove<T, U>(b: seq<T>, j: nat, keep: T -> bool, f: T -> U)
    requires j < |b|
    ensures multiset(FilterMap(b, keep, f))
      == multiset(FilterMap([b[j]], keep, f)) + multiset(FilterMap(b[..j] + b[j + 1..], keep, f))
  {
    assert b == b[..j] + ([b[j]] + b[j + 1..]);
    FilterMapAppend(b[..j], [b[j]] + b[j + 1..], keep, f);
    FilterMapAppend([b[j]], b[j + 1..], keep, f);
    FilterMapAppend(b[..j], b[j + 1..], keep, f);
  }

  /** The comprehension maps permutations to permutations. */
  lemma {:induction false} FilterMapPermutation<T, U>(a: seq<T>, b: seq<T>, keep: T -> bool, f: T -> U)
    requires multiset(a) == multiset(b)
    ensures multiset(FilterMap(a, keep, f)) == multiset(FilterMap(b, keep, f))
    decreases |a|
  {
    if a == [] {
      assert |b| == |multiset(b)| == 0;
    } else {
      var x := a[0];
      assert x in multiset(b);
      var j :| 0 <= j < |b| && b[j] == x;
      assert a == [x] + a[1..];
      assert multiset(a[1..]) == multiset(a) - multiset{x};
      MultisetRemove(b, j);
      FilterMapPermutation(a[1..], b[..j] + b[j + 1..], keep, f);
      FilterMapRemove(b, j, keep, f);
      FilterMapAppend([x], a[1..], keep, f);
    }
  }
}

=== FILE: llm.dfy ===
/**
 The embedded project context (context.py `get_llm_info`): the text a
 README holds between its first two `<!--LLM-->` markers, stripped.
 */
module Llm {
  import opened Wrappers
  import opened Text

  const Marker: string := "<!--LLM-->"

  /** The marker's first character, `<`, occurs nowhere else in it. */
  lemma MarkerShape()
    ensures |Marker| == 10 && Marker[0] == '<'
    ensures forall k :: 1 <= k < |Marker| ==> Marker[k] != '<'
  {
  }

  /** No other marker starts inside an occurrence of the marker. */
  lemma MarkerGap(s: string, i: int)
    requires OccursAt(s, Marker, i)
    ensures forall p :: i < p < i + |Marker| ==> !OccursAt(s, Marker, p)
  {
    MarkerShape();
    forall p | i < p < i + |Marker| ensures !OccursAt(s, Marker, p) {
      assert s[p] == s[i..i + |Marker|][p - i] == Marker[p - i] != '<';
      OccurrenceHead(s, Marker, p);
    }
  }

  /** Two occurrences of the marker never overlap. */
  lemma MarkerNoOverlap(s: string, i: int, j: int)
    requires OccursAt(s, Marker, i) && OccursAt(s, Marker, j) && i < j
    ensures i + |Marker| <= j
  {
    MarkerGap(s, i);
  }

  /** `content.find(M)`, then `content.find(M, start + 1)`, and the stripped
      text between the two when both are found. When the first search
      fails the second starts from 0, which the guard makes irrelevant. */
  function ExtractContext(content: string): (r: Option<string>)
    ensures r.Some? ==> !Contains(r.value, Marker)
  {
    var start := Find(content, Marker, 0);
    var end := Find(content, Marker, if start == -1 then 0 else start + 1);
    if start != -1 && end != -1 then
      MarkerNoOverlap(content, start, end);
      var between := content[start + |Marker|..end];
      BetweenHasNoMarker(content, start, end);
      StripHasNoMarker(between);
      Some(Strip(between))
    else None
  }

  /** No marker lies wholly between two consecutive markers. */
  lemma BetweenHasNoMarker(s: string, i: int, j: int)
    requires OccursAt(s, Marker, i) && OccursAt(s, Marker, j) && i + |Marker| <= j
    requires forall p :: i + 1 <= p < j ==> !OccursAt(s, Marker, p)
    ensures !Contains(s[i + |Marker|..j], Marker)
  {
    var t := s[i + |Marker|..j];
    forall q ensures !OccursAt(t, Marker, q) {
      OccursInSlice(s, Marker, i + |Marker|, j, q);
    }
  }

  /** Stripping cannot create a marker. */
  lemma StripHasNoMarker(t: string)
    requires !Contains(t, Marker)
    ensures !Contains(Strip(t), Marker)
  {
    var i := LeadCount(t);
    NoOccurrenceInSlice(t, Marker, i, i + |Strip(t)|);
  }

  /** The content holds at least two markers. */
  predicate TwoMarkers(s: string) {
    exists i, j | 0 <= i < j <= |s| :: OccursAt(s, Marker, i) && OccursAt(s, Marker, j)
  }

  /** `None` exactly when fewer than two markers occur. */
  lemma ExtractNoneIff(s: string)
    ensures ExtractContext(s).None? <==> !TwoMarkers(s)
  {
    var start := Find(s, Marker, 0);
    if TwoMarkers(s) {
      var i, j :| 0 <= i < j && OccursAt(s, Marker, i) && OccursAt(s, Marker, j);
      assert start != -1 && start <= i;
      assert Find(s, Marker, start + 1) != -1;
    }
    if ExtractContext(s).Some? {
      assert OccursAt(s, Marker, start);
      assert OccursAt(s, Marker, Find(s, Marker, start + 1));
    }
  }

  /** The first marker at or after `from` in `x + Marker + rest` is the one
      placed after `x`, when `x` holds no marker from `from` on. */
  lemma FirstMarkerAt(x: string, rest: string, from: nat)
    requires from <= |x|
    requires forall p :: from <= p ==> !OccursAt(x, Marker, p)
    ensures Find(x + Marker + rest, Marker, from) == |x|
  {
    var s := x + Marker + rest;
    assert OccursAt(s, Marker, |x|) by { assert s[|x|..|x| + |Marker|] == Marker; }
    forall p | from <= p < |x| ensures !OccursAt(s, Marker, p) {
      if p + |Marker| <= |x| {
        assert s[p..p + |Marker|] == x[p..p + |Marker|];
        assert !OccursAt(x, Marker, p);
      } else {
        assert OccursAt(s, Marker, p) ==> p + |Marker| <= |x| by {
          if OccursAt(s, Marker, p) { MarkerNoOverlap(s, p, |x|); }
        }
      }
    }
  }

  /** Embedding a text between two markers, after a preamble free of markers,
      and extracting it again gives the text back, stripped. */
  lemma EmbedRoundTrip(pre: string, body: string, post: string)
    requires !Contains(pre, Marker) && !Contains(body, Marker)
    ensures ExtractContext(pre + Marker + body + Marker + post) == Some(Strip(body))
  {
    var s := pre + Marker + body + Marker + post;
    var x := pre + Marker + body;
    EmbedMarkers(pre, body, post);
    assert s[|pre| + |Marker|..|x|] == body;
  }

  /** The two searches in an embedding find the two placed markers. */
  lemma EmbedMarkers(pre: string, body: string, post: string)
    requires !Contains(pre, Marker) && !Contains(body, Marker)
    ensures Find(pre + Marker + body + Marker + post, Marker, 0) == |pre|
    ensures Find(pre + Marker + body + Marker + post, Marker, |pre| + 1) == |pre + Marker + body|
  {
    var x := pre + Marker + body;
    assert pre + Marker + body + Marker + post == pre + Marker + (body + Marker + post);
    FirstMarkerAt(pre, body + Marker + post, 0);
    NoMarkerAfterFirst(pre, body);
    FirstMarkerAt(x, post, |pre| + 1);
  }

  /** After its first character, `pre + Marker + body` holds no marker. */
  lemma NoMarkerAfterFirst(pre: string, body: string)
    requires !Contains(body, Marker)
    ensures forall p :: |pre| + 1 <= p ==> !OccursAt(pre + Marker + body, Marker, p)
  {
    var x := pre + Marker + body;
    assert OccursAt(x, Marker, |pre|) by { assert x[|pre|..|pre| + |Marker|] == Marker; }
    MarkerGap(x, |pre|);
    assert x[|pre| + |Marker|..] == body;
    forall p | |pre| + |Marker| <= p ensures !OccursAt(x, Marker, p) {
      var q := p - |pre| - |Marker|;
      OccursInTail(x, Marker, |pre| + |Marker|, q);
      assert !OccursAt(body, Marker, q);
    }
  }
}

=== FILE: order.dfy ===
/**
 Python's ordering of `str` values (lexicographic by code point, a proper
 prefix first) and `list.sort()` on a list of strings.
 */
module Order {

  /** Python's `a < b` on strings. */
  predicate Less(a: string, b: string)
    decreases |a|
  {
    if |a| == 0 then |b| > 0
    else if |b| == 0 then false
    else if a[0] != b[0] then a[0] < b[0]
    else Less(a[1..], b[1..])
  }

  /** Python's `a <= b` on strings. */
  predicate LessEq(a: string, b: string) {
    !Less(b, a)
  }

  lemma {:induction false} LessIrreflexive(a: string)
    ensures !Less(a, a)
    decreases |a|
  {
    if |a| > 0 { LessIrreflexive(a[1..]); }
  }

  lemma {:induction false} LessTransitive(a: string, b: string, c: string)
    requires Less(a, b) && Less(b, c)
    ensures Less(a, c)
    decreases |a|
  {
    if |a| > 0 && a[0] == b[0] && b[0] == c[0] {
      LessTransitive(a[1..], b[1..], c[1..]);
    }
  }

  /** Any two distinct strings are ordered one way or the other. */
  lemma {:induction false} LessTotal(a: string, b: string)
    requires a != b
    ensures Less(a, b) || Less(b, a)
    decreases |a|
  {
    if |a| > 0 && |b| > 0 && a[0] == b[0] {
      assert a == [a[0]] + a[1..] && b == [b[0]] + b[1..];
      LessTotal(a[1..], b[1..]);
    }
  }

  lemma LessAsymmetric(a: string, b: string)
    requires Less(a, b)
    ensures !Less(b, a)
  {
    if Less(b, a) {
      LessTransitive(a, b, a);
      LessIrreflexive(a);
    }
  }

  lemma LessEqTransitive(a: string, b: string, c: string)
    requires LessEq(a, b) && LessEq(b, c)
    ensures LessEq(a, c)
  {
    if Less(c, a) {
      if a == b {
      } else if b == c {
      } else {
        LessTotal(a, b);
        LessTotal(b, c);
        LessTransitive(c, a, b);
      }
    }
  }

  lemma LessEqAntisymmetric(a: string, b: string)
    requires LessEq(a, b) && LessEq(b, a)
    ensures a == b
  {
    if a != b { LessTotal(a, b); }
  }

  /** `s` is in non-decreasing order. */
  predicate Sorted(s: seq<string>) {
    forall i, j :: 0 <= i < j < |s| ==> LessEq(s[i], s[j])
  }

  /** `y` is at or below every element of `t`. */
  predicate LowerBound(y: string, t: seq<string>) {
    forall k :: 0 <= k < |t| ==> LessEq(y, t[k])
  }

  lemma SortedCons(y: string, t: seq<string>)
    requires Sorted(t) && LowerBound(y, t)
    ensures Sorted([y] + t)
  {
    var r := [y] + t;
    forall i, j | 0 <= i < j < |r| ensures LessEq(r[i], r[j]) {
      if i == 0 { assert r[j] == t[j - 1]; } else { assert r[i] == t[i - 1] && r[j] == t[j - 1]; }
    }
  }

  lemma LowerBoundOfInsert(y: string, x: string, u: seq<string>, t: seq<string>)
    requires LessEq(y, x) && LowerBound(y, u)
    requires multiset(t) == multiset(u) + multiset{x}
    ensures LowerBound(y, t)
  {
    forall k | 0 <= k < |t| ensures LessEq(y, t[k]) {
      assert t[k] in multiset(t);
      if t[k] != x {
        assert t[k] in multiset(u);
        var m :| 0 <= m < |u| && u[m] == t[k];
      }
    }
  }

  /** Insert `x` into the sorted list `s` before its first element not below `x`. */
  function Insert(x: string, s: seq<string>): (r: seq<string>)
    requires Sorted(s)
    ensures Sorted(r)
    ensures multiset(r) == multiset(s) + multiset{x}
  {
    if s == [] then [x]
    else if Less(s[0], x) then
      var t := Insert(x, s[1..]);
      assert s == [s[0]] + s[1..];
      LessAsymmetric(s[0], x);
      assert LowerBound(s[0], s[1..]);
      LowerBoundOfInsert(s[0], x, s[1..], t);
      SortedCons(s[0], t);
      [s[0]] + t
    else
      assert LowerBound(x, s) by {
        forall k | 0 <= k < |s| ensures LessEq(x, s[k]) {
          if k > 0 { LessEqTransitive(x, s[0], s[k]); }
        }
      }
      SortedCons(x, s);
      [x] + s
  }

  /** Python's `list.sort()` on strings: a sorted permutation of `s`. */
  function Sort(s: seq<string>): (r: seq<string>)
    ensures Sorted(r)
    ensures multiset(r) == multiset(s)
    ensures |r| == |s|
  {
    if s == [] then []
    else
      assert s == [s[0]] + s[1..];
      Insert(s[0], Sort(s[1..]))
  }

  /** The head of a sorted list is at or below each of its elements. */
  lemma SortedHeadIsLeast(a: seq<string>, x: string)
    requires Sorted(a) && x in multiset(a)
    ensures |a| > 0 && LessEq(a[0], x)
  {
    var i :| 0 <= i < |a| && a[i] == x;
    if i == 0 { LessIrreflexive(x); }
  }

  /** Two sorted lists holding the same strings are equal, so `Sort` stands
      for any sorting algorithm, in particular the one Python uses. */
  lemma {:induction false} SortedUnique(a: seq<string>, b: seq<string>)
    requires Sorted(a) && Sorted(b)
    requires multiset(a) == multiset(b)
    ensures a == b
    decreases |a|
  {
    if a != [] {
      assert a[0] in multiset(a);
      SortedHeadIsLeast(b, a[0]);
      assert b[0] in multiset(b);
      SortedHeadIsLeast(a, b[0]);
      LessEqAntisymmetric(a[0], b[0]);
      assert a == [a[0]] + a[1..] && b == [b[0]] + b[1..];
      assert multiset(a) == multiset([a[0]]) + multiset(a[1..]);
      assert multiset(b) == multiset([b[0]]) + multiset(b[1..]);
      assert [a[0]] == [b[0]];
      assert multiset(a[1..]) == multiset(a) - multiset([a[0]]);
      assert multiset(b[1..]) == multiset(b) - multiset([b[0]]);
      SortedUnique(a[1..], b[1..]);
    } else {
      assert |b| == |multiset(b)| == 0;
    }
  }

  /** Sorting depends only on the strings, not on the order they come in. */
  lemma SortPermutationInvariant(a: seq<string>, b: seq<string>)
    requires multiset(a) == multiset(b)
    ensures Sort(a) == Sort(b)
  {
    SortedUnique(Sort(a), Sort(b));
  }
}

=== FILE: paths.dfy ===
/**
 The two POSIX path helpers the renderer calls: `os.path.join` with two
 arguments and `os.path.basename`.
 */
module Paths {

  /** A name as `os.listdir` reports it: non-empty and free of `/`. */
  predicate ValidName(name: string) {
    name != [] && '/' !in name
  }

  /** `os.path.join(a, b)`: an absolute `b` replaces `a`; otherwise a `/` is
      inserted unless `a` is empty or already ends with one. */
  function Join(a: string, b: string): (r: string)
    ensures |b| > 0 && b[0] == '/' ==> r == b
    ensures !(|b| > 0 && b[0] == '/') ==> |r| >= |a| + |b| && r[..|a|] == a && r[|r| - |b|..] == b
  {
    if |b| > 0 && b[0] == '/' then b
    else if a == [] || a[|a| - 1] == '/' then a + b
    else a + "/" + b
  }

  /** `r` is a suffix of `p`. */
  predicate EndsWith(p: string, r: string) {
    |r| <= |p| && p[|p| - |r|..] == r
  }

  /** `os.path.basename(p)`: everything after the last `/`, that is, the
      longest suffix of `p` free of `/`. */
  function Basename(p: string): (r: string)
    ensures EndsWith(p, r)
    ensures '/' !in r
    ensures |r| < |p| ==> p[|p| - |r| - 1] == '/'
  {
    if p == [] || p[|p| - 1] == '/' then ""
    else
      var q := p[..|p| - 1];
      assert p == q + [p[|p| - 1]];
      Basename(q) + [p[|p| - 1]]
  }

  /** A `/`-free name placed after a separator (or at the start) is the basename. */
  lemma BasenameOfSuffix(x: string, name: string)
    requires ValidName(name)
    requires x == [] || x[|x| - 1] == '/'
    ensures Basename(x + name) == name
  {
    var p := x + name;
    var r := Basename(p);
    assert p[|p| - |name|..] == name;
  }

  /** Joining a directory path and an entry name, then taking the basename,
      gives the name back: the renderer prints `basename(join(root, name))`. */
  lemma BasenameOfJoin(dir: string, name: string)
    requires ValidName(name)
    ensures Basename(Join(dir, name)) == name
  {
    assert name[0] in name;
    if dir == [] || dir[|dir| - 1] == '/' {
      BasenameOfSuffix(dir, name);
    } else {
      assert dir + "/" + name == (dir + "/") + name;
      BasenameOfSuffix(dir + "/", name);
    }
  }
}

=== FILE: text.dfy ===
/**
 String operations of Python's `str` that the tool relies on: `strip()`,
 `startswith`, `find`, `split(sep)[0]` and `sep.join`. Strings are sequences
 of Dafny `char`s, which are Unicode scalar values.
 */
module Text {

  /** Python's `str.isspace()` for a single code point: the characters that
      `str.strip()` with no argument removes. */
  predicate IsSpace(c: char) {
    || c == ' ' || c == '\t' || c == '\n' || c == '\r'
    || c == '\U{000B}' || c == '\U{000C}'
    || ('\U{001C}' <= c <= '\U{001F}')
    || c == '\U{0085}' || c == '\U{00A0}' || c == '\U{1680}'
    || ('\U{2000}' <= c <= '\U{200A}')
    || c == '\U{2028}' || c == '\U{2029}' || c == '\U{202F}'
    || c == '\U{205F}' || c == '\U{3000}'
  }

  /** Every character of `s` is white space (vacuously true of ""). */
  predicate AllSpace(s: string) {
    forall i :: 0 <= i < |s| ==> IsSpace(s[i])
  }

  /** Number of leading white-space characters. */
  function LeadCount(s: string): (n: nat)
    ensures n <= |s|
    ensures forall i :: 0 <= i < n ==> IsSpace(s[i])
    ensures n < |s| ==> !IsSpace(s[n])
  {
    if s == [] || !IsSpace(s[0]) then 0
    else
      var n := 1 + LeadCount(s[1..]);
      assert forall i :: 1 <= i < n ==> s[i] == s[1..][i - 1];
      n
  }

  /** Number of trailing white-space characters. */
  function TrailCount(s: string): (n: nat)
    ensures n <= |s|
    ensures forall i :: |s| - n <= i < |s| ==> IsSpace(s[i])
    ensures n < |s| ==> !IsSpace(s[|s| - n - 1])
  {
    if s == [] || !IsSpace(s[|s| - 1]) then 0
    else
      var n := 1 + TrailCount(s[..|s| - 1]);
      assert forall i :: |s| - n <= i < |s| - 1 ==> s[i] == s[..|s| - 1][i];
      n
  }

  /** The leading white space is exactly the first `n` characters. */
  lemma LeadCountIs(s: string, n: nat)
    requires n <= |s| && (forall i :: 0 <= i < n ==> IsSpace(s[i])) && (n < |s| ==> !IsSpace(s[n]))
    ensures LeadCount(s) == n
  {
  }

  /** The trailing white space is exactly the last `n` characters. */
  lemma TrailCountIs(s: string, n: nat)
    requires n <= |s| && (forall i :: |s| - n <= i < |s| ==> IsSpace(s[i])) && (n < |s| ==> !IsSpace(s[|s| - n - 1]))
    ensures TrailCount(s) == n
  {
  }

  /** Neither end of `r` is white space. */
  predicate Trimmed(r: string) {
    r == [] || (!IsSpace(r[0]) && !IsSpace(r[|r| - 1]))
  }

  /** `r` is `s` with some white-space prefix and suffix cut off. */
  predicate CoreOf(s: string, r: string) {
    exists i :: 0 <= i <= |s| - |r| && s[i..i + |r|] == r && AllSpace(s[..i]) && AllSpace(s[i + |r|..])
  }

  /** Python's `s.strip()`: `s` without its leading and trailing white space. */
  function Strip(s: string): (r: string)
    ensures |r| <= |s|
    ensures Trimmed(r)
    ensures r == [] <==> AllSpace(s)
    ensures CoreOf(s, r)
    ensures LeadCount(s) + |r| <= |s| && s[LeadCount(s)..LeadCount(s) + |r|] == r
  {
    var a := LeadCount(s);
    if a == |s| then
      StripShape(s, a, a);
      []
    else
      var e := |s| - TrailCount(s);
      assert a < e;
      StripShape(s, a, e);
      s[a..e]
  }

  /** The slice between white-space ends, when its own ends are not white
      space, is what `Strip` promises. */
  lemma StripShape(s: string, a: int, e: int)
    requires 0 <= a <= e <= |s|
    requires forall i :: 0 <= i < a ==> IsSpace(s[i])
    requires forall i :: e <= i < |s| ==> IsSpace(s[i])
    requires a < e ==> !IsSpace(s[a]) && !IsSpace(s[e - 1])
    ensures Trimmed(s[a..e])
    ensures s[a..e] == [] <==> AllSpace(s)
    ensures CoreOf(s, s[a..e])
  {
    assert AllSpace(s[..a]) && AllSpace(s[e..]);
    assert s[a..][..e - a] == s[a..e];
  }

  lemma AllSpaceConcat(u: string, v: string)
    requires AllSpace(u) && AllSpace(v)
    ensures AllSpace(u + v)
  {
    forall i | 0 <= i < |u + v| ensures IsSpace((u + v)[i]) {
      if i < |u| { assert (u + v)[i] == u[i]; } else { assert (u + v)[i] == v[i - |u|]; }
    }
  }

  /** Stripping is idempotent. */
  lemma StripIdempotent(s: string)
    ensures Strip(Strip(s)) == Strip(s)
  {
    StripTrimmed(Strip(s));
  }

  /** `Strip` removes exactly the white space around a trimmed core: the
      core is unique. */
  lemma StripOfPadded(pre: string, core: string, post: string)
    requires AllSpace(pre) && AllSpace(post) && Trimmed(core)
    ensures Strip(pre + core + post) == core
  {
    var s := pre + core + post;
    if core == [] {
      AllSpaceConcat(pre, post);
      assert s == pre + post;
    } else {
      assert s[|pre|] == core[0] && s[|s| - |post| - 1] == core[|core| - 1];
      assert forall i :: 0 <= i < |pre| ==> s[i] == pre[i];
      assert forall i :: |s| - |post| <= i < |s| ==> s[i] == post[i - (|s| - |post|)];
      LeadCountIs(s, |pre|);
      TrailCountIs(s, |post|);
      assert s[|pre|..|s| - |post|] == core;
    }
  }

  /** A string without white space at either end strips to itself. */
  lemma StripTrimmed(s: string)
    requires Trimmed(s)
    ensures Strip(s) == s
  {
    assert "" + s + "" == s;
    StripOfPadded("", s, "");
  }

  /** Python's `s.startswith(p)`. */
  predicate StartsWith(s: string, p: string) {
    |p| <= |s| && s[..|p|] == p
  }

  /** A string that starts with `p + q` starts with `p`. */
  lemma StartsWithShorter(s: string, p: string, q: string)
    requires StartsWith(s, p + q)
    ensures StartsWith(s, p)
  {
    assert s[..|p|] == s[..|p + q|][..|p|];
  }

  /** `pat` occurs in `s` starting at index `i`. */
  predicate OccursAt(s: string, pat: string, i: int) {
    0 <= i && i + |pat| <= |s| && s[i..i + |pat|] == pat
  }

  /** An occurrence inside a slice is an occurrence in the whole string. */
  lemma OccursInSlice(s: string, pat: string, a: int, b: int, q: int)
    requires 0 <= a <= b <= |s|
    ensures OccursAt(s[a..b], pat, q) ==> OccursAt(s, pat, a + q)
  {
    var t := s[a..b];
    if OccursAt(t, pat, q) {
      forall k | 0 <= k < |pat| ensures s[a + q..a + q + |pat|][k] == pat[k] {
        assert t[q + k] == s[a + q + k];
        assert t[q..q + |pat|][k] == t[q + k];
      }
      assert s[a + q..a + q + |pat|] == pat;
    }
  }

  /** An occurrence in a string, past a cut, is an occurrence in its tail. */
  lemma OccursInTail(s: string, pat: string, a: int, q: int)
    requires 0 <= a <= |s| && 0 <= q
    ensures OccursAt(s, pat, a + q) ==> OccursAt(s[a..], pat, q)
  {
    if OccursAt(s, pat, a + q) {
      assert s[a..][q..q + |pat|] == s[a + q..a + q + |pat|];
    }
  }

  /** A slice of a string free of `pat` is free of `pat`. */
  lemma NoOccurrenceInSlice(s: string, pat: string, a: int, b: int)
    requires 0 <= a <= b <= |s| && !Contains(s, pat)
    ensures !Contains(s[a..b], pat)
  {
    forall q ensures !OccursAt(s[a..b], pat, q) {
      OccursInSlice(s, pat, a, b, q);
      assert OccursAt(s, pat, a + q) ==> 0 <= a + q <= |s|;
    }
  }

  /** An occurrence of a non-empty pattern starts with its first character. */
  lemma OccurrenceHead(s: string, pat: string, i: int)
    requires |pat| > 0
    ensures OccursAt(s, pat, i) ==> s[i] == pat[0]
  {
    if OccursAt(s, pat, i) {
      assert s[i] == s[i..i + |pat|][0];
    }
  }

  /** `pat` occurs somewhere in `s` (Python's `pat in s`). */
  predicate Contains(s: string, pat: string) {
    exists i | 0 <= i <= |s| :: OccursAt(s, pat, i)
  }

  /** Python's `s.find(pat, from)` for a non-negative `from`: the least index
      at or after `from` where `pat` occurs, or -1 when there is none. */
  function Find(s: string, pat: string, from: nat): (r: int)
    ensures r == -1 || (from <= r && OccursAt(s, pat, r))
    ensures r == -1 ==> forall i :: from <= i ==> !OccursAt(s, pat, i)
    ensures r != -1 ==> forall i :: from <= i < r ==> !OccursAt(s, pat, i)
    decreases |s| - from
  {
    if from + |pat| > |s| then -1
    else if s[from..from + |pat|] == pat then from
    else Find(s, pat, from + 1)
  }

  /** Python's `s.split(sep)[0]` for a non-empty `sep`: the text before the
      first occurrence of `sep`, or all of `s` when `sep` does not occur. */
  function BeforeFirst(s: string, sep: string): (r: string)
    requires sep != []
    ensures |r| <= |s| && s[..|r|] == r
    ensures !Contains(r, sep)
    ensures r == s || OccursAt(s, sep, |r|)
    ensures forall i :: 0 <= i < |r| ==> !OccursAt(s, sep, i)
    ensures r == s <==> !Contains(s, sep)
  {
    var i := Find(s, sep, 0);
    if i == -1 then s
    else
      var r := s[..i];
      assert !Contains(r, sep) by {
        forall j | OccursAt(r, sep, j) ensures false {
          assert s[j..j + |sep|] == r[j..j + |sep|];
          assert OccursAt(s, sep, j);
        }
      }
      r
  }

  /** The cut is at the first separator: a prefix of `s` ends where `sep`
      first occurs (or is all of `s` when there is none) exactly when it is
      `BeforeFirst(s, sep)`. */
  lemma BeforeFirstExactly(s: string, sep: string, p: string)
    requires sep != [] && |p| <= |s| && s[..|p|] == p
    ensures p == BeforeFirst(s, sep) <==>
      (p == s || OccursAt(s, sep, |p|)) && forall i :: 0 <= i < |p| ==> !OccursAt(s, sep, i)
  {
    var r := BeforeFirst(s, sep);
    if (p == s || OccursAt(s, sep, |p|)) && (forall i :: 0 <= i < |p| ==> !OccursAt(s, sep, i)) {
      assert |p| == |r|;
      assert p == s[..|p|] == s[..|r|] == r;
    }
  }

  /** In `pkg + "==" + ver` with no `=` in `pkg`, the first `==` is the one
      after `pkg`. */
  lemma BeforeFirstOfPin(pkg: string, ver: string)
    requires '=' !in pkg
    ensures BeforeFirst(pkg + "==" + ver, "==") == pkg
  {
    var core := pkg + "==" + ver;
    assert OccursAt(core, "==", |pkg|) by { assert core[|pkg|..|pkg| + 2] == "=="; }
    assert forall i :: 0 <= i < |pkg| ==> !OccursAt(core, "==", i) by {
      forall i | 0 <= i < |pkg| ensures !OccursAt(core, "==", i) {
        assert pkg[i] in pkg;
        assert core[i] == pkg[i] != '=';
      }
    }
    assert Find(core, "==", 0) == |pkg|;
    assert core[..|pkg|] == pkg;
  }

  /** Python's `sep.join(xs)`. */
  function JoinWith(xs: seq<string>, sep: string): string {
    if |xs| == 0 then ""
    else if |xs| == 1 then xs[0]
    else xs[0] + sep + JoinWith(xs[1..], sep)
  }

  /** Python's `s.split(sep)` for a non-empty `sep`: every cut but the last
      is made at the leftmost separator, so no separator starts inside a
      part that one follows. */
  function SplitOn(s: string, sep: string): (parts: seq<string>)
    requires sep != []
    ensures |parts| >= 1
    ensures forall k :: 0 <= k < |parts| ==> !Contains(parts[k], sep)
    ensures JoinWith(parts, sep) == s
    ensures forall k, i :: 0 <= k < |parts| - 1 && 0 <= i < |parts[k]| ==> !OccursAt(parts[k] + sep, sep, i)
    decreases |s|
  {
    var i := Find(s, sep, 0);
    if i == -1 then [s]
    else
      var head := BeforeFirst(s, sep);
      var tail := SplitOn(s[i + |sep|..], sep);
      assert s == s[..i] + sep + s[i + |sep|..];
      assert head + sep == s[..i + |sep|];
      assert forall q | 0 <= q < |head| :: !OccursAt(head + sep, sep, q) by {
        forall q | 0 <= q < |head| ensures !OccursAt(head + sep, sep, q) {
          OccursInSlice(s, sep, 0, i + |sep|, q);
        }
      }
      var parts := [head] + tail;
      assert forall k :: 1 <= k < |parts| ==> parts[k] == tail[k - 1];
      parts
  }

  /** In `x + ", " + rest`, the first `", "` is the one placed by the join,
      provided `x` itself holds none: a separator cannot start on the last
      character of `x` because its second character is not a comma. */
  lemma {:induction false} FindCommaSpaceAfter(x: string, rest: string)
    requires !Contains(x, ", ")
    ensures Find(x + ", " + rest, ", ", 0) == |x|
  {
    var s := x + ", " + rest;
    assert OccursAt(s, ", ", |x|) by { assert s[|x|..|x| + 2] == ", "; }
    forall i | 0 <= i < |x| ensures !OccursAt(s, ", ", i) {
      if i + 2 <= |x| {
        assert s[i..i + 2] == x[i..i + 2];
        assert OccursAt(s, ", ", i) ==> OccursAt(x, ", ", i);
      } else {
        assert s[i + 1] == ',';
      }
    }
  }

  /** Splitting a `", "`-joined list recovers it, when it is non-empty and no
      element contains the separator; `", ".join([])` is `""`, which splits
      back to `[""]`. */
  lemma {:induction false} SplitJoinRoundTrip(xs: seq<string>)
    requires |xs| >= 1
    requires forall k :: 0 <= k < |xs| ==> !Contains(xs[k], ", ")
    ensures SplitOn(JoinWith(xs, ", "), ", ") == xs
    decreases |xs|
  {
    if |xs| == 1 {
      var i := Find(xs[0], ", ", 0);
      assert i == -1;
    } else {
      var rest := JoinWith(xs[1..], ", ");
      var s := xs[0] + ", " + rest;
      FindCommaSpaceAfter(xs[0], rest);
      assert s[|xs[0]| + 2..] == rest;
      assert BeforeFirst(s, ", ") == xs[0];
      SplitJoinRoundTrip(xs[1..]);
      assert SplitOn(s, ", ") == [xs[0]] + xs[1..];
    }
  }
}

=== FILE: tree.dfy ===
/**
 The directory tree renderer (context.py `get_directory_structure`).

 A directory is an immutable value: the list `os.listdir` returns, in that
 order, each entry classified the way `os.path.isdir`/`os.path.isfile`
 classify it. The renderer lists the kept sub-directories and files of a
 directory, sorts their names together, and emits one line per entry, the
 line of a sub-directory followed by the lines of its contents.
 */
module Tree {
  import opened Wrappers
  import opened Text
  import opened Paths
  import opened Lists
  import opened Order
  import opened Ignore

  datatype Dir = Dir(entries: seq<Entry>)

  /** An entry of a listing: a regular file, a sub-directory with its own
      listing, or something that is neither (a dangling link, a socket),
      which neither list comprehension admits. */
  datatype Entry =
    | File(name: string)
    | Subdir(name: string, dir: Dir)
    | Other(name: string)

  /** The built-in exclusion list (context.py:26). */
  const ExplicitIgnore: seq<string> := [
    ".git", "__pycache__", "venv", "env", "target", ".mvn", "logs", "*.log",
    ".next", "node_modules", ".vercel", "out", ".idea", ".DS_Store", ".vscode",
    "*.swp", "*.swo", "*.bak", "*.pyi"]

  /** Connectors and continuation blocks, each four characters wide. */
  const Tee: string := "\U{251C}\U{2500}\U{2500} "
  const Elbow: string := "\U{2514}\U{2500}\U{2500} "
  const Bar: string := "\U{2502}   "
  const Blank: string := "    "

  function Connector(isLast: bool): string {
    if isLast then Elbow else Tee
  }

  function Continuation(isLast: bool): string {
    if isLast then Blank else Bar
  }

  /** A sub-directory survives when its name does not start with `.` and
      neither the user patterns nor the built-in ones match it. */
  predicate DirKept(path: string, e: Entry, pats: seq<string>, m: Matcher) {
    e.Subdir? && !StartsWith(e.name, ".") && !IsIgnored(Join(path, e.name), pats + ExplicitIgnore, m)
  }

  /** A file survives unless a user pattern matches it; the built-in list
      is not consulted for files. */
  predicate FileKept(path: string, e: Entry, pats: seq<string>, m: Matcher) {
    e.File? && !IsIgnored(Join(path, e.name), pats, m)
  }

  function DirFilter(path: string, pats: seq<string>, m: Matcher): Entry -> bool {
    (e: Entry) => DirKept(path, e, pats, m)
  }

  function FileFilter(path: string, pats: seq<string>, m: Matcher): Entry -> bool {
    (e: Entry) => FileKept(path, e, pats, m)
  }

  function EntryName(e: Entry): string {
    e.name
  }

  /** `dirnames` after both filters, in listing order. */
  function KeptDirs(path: string, entries: seq<Entry>, pats: seq<string>, m: Matcher): seq<string> {
    FilterMap(entries, DirFilter(path, pats, m), EntryName)
  }

  /** `filenames` after filtering, in listing order. */
  function KeptFiles(path: string, entries: seq<Entry>, pats: seq<string>, m: Matcher): seq<string> {
    FilterMap(entries, FileFilter(path, pats, m), EntryName)
  }

  /** `all_names`: the kept directory and file names, sorted together. */
  function Names(path: string, dir: Dir, pats: seq<string>, m: Matcher): seq<string> {
    Sort(KeptDirs(path, dir.entries, pats, m) + KeptFiles(path, dir.entries, pats, m))
  }

  predicate IsDirNamed(e: Entry, name: string) {
    e.Subdir? && e.name == name
  }

  /** Position of the first sub-directory called `name` at or after `from`. */
  function FindDirFrom(entries: seq<Entry>, name: string, from: nat): (r: Option<nat>)
    ensures r.Some? ==> from <= r.value < |entries| && IsDirNamed(entries[r.value], name)
    ensures r.Some? ==> forall j :: from <= j < r.value ==> !IsDirNamed(entries[j], name)
    ensures r.None? ==> forall j :: from <= j < |entries| ==> !IsDirNamed(entries[j], name)
    decreases |entries| - from
  {
    if from >= |entries| then None
    else if IsDirNamed(entries[from], name) then Some(from)
    else FindDirFrom(entries, name, from + 1)
  }

  /** The sub-directory `os.path.join(rootdir, name)` denotes. */
  function FindDir(entries: seq<Entry>, name: string): Option<nat> {
    FindDirFrom(entries, name, 0)
  }

  /** Every sorted name is a kept file or names a sub-directory. */
  predicate Resolvable(dir: Dir, files: seq<string>, names: seq<string>) {
    forall n :: n in names ==> n in files || FindDir(dir.entries, n).Some?
  }

  /** `get_directory_structure(path, pats, prefix, is_last)`: the directory's
      own line when `prefix` is non-empty, then the lines of its kept
      entries in sorted order. */
  function Render(path: string, dir: Dir, pats: seq<string>, m: Matcher, prefix: string, isLast: bool): seq<string>
    decreases dir, 1, 0
  {
    var files := KeptFiles(path, dir.entries, pats, m);
    var names := Names(path, dir, pats, m);
    NamesResolvable(path, dir, pats, m);
    var head := if prefix != "" then [prefix + Connector(isLast) + Basename(path)] else [];
    head + RenderItems(path, dir, pats, m, files, names, prefix + Continuation(isLast), 0)
  }

  /** The loop over `enumerate(all_names)` from position `i` on. */
  function RenderItems(path: string, dir: Dir, pats: seq<string>, m: Matcher,
                       files: seq<string>, names: seq<string>, childPrefix: string, i: nat): seq<string>
    requires i <= |names| && Resolvable(dir, files, names)
    decreases dir, 0, |names| - i + 1
  {
    if i == |names| then []
    else ItemLines(path, dir, pats, m, files, names, childPrefix, i)
         + RenderItems(path, dir, pats, m, files, names, childPrefix, i + 1)
  }

  /** The lines one loop iteration adds: a file's single line, or the
      recursive rendering of a sub-directory. */
  function ItemLines(path: string, dir: Dir, pats: seq<string>, m: Matcher,
                     files: seq<string>, names: seq<string>, childPrefix: string, i: nat): seq<string>
    requires i < |names| && Resolvable(dir, files, names)
    decreases dir, 0, 0
  {
    var name := names[i];
    var isLastItem := i == |names| - 1;
    if name in files then [childPrefix + Connector(isLastItem) + name]
    else
      assert name in names;
      var j := FindDir(dir.entries, name).value;
      assert dir.entries[j] in dir.entries;
      Render(Join(path, name), dir.entries[j].dir, pats, m, childPrefix, isLastItem)
  }

  /** Each sorted name is a kept file or a kept sub-directory. */
  lemma NamesResolvable(path: string, dir: Dir, pats: seq<string>, m: Matcher)
    ensures Resolvable(dir, KeptFiles(path, dir.entries, pats, m), Names(path, dir, pats, m))
  {
    var dirs := KeptDirs(path, dir.entries, pats, m);
    var files := KeptFiles(path, dir.entries, pats, m);
    forall n | n in Names(path, dir, pats, m) ensures n in files || FindDir(dir.entries, n).Some? {
      assert n in multiset(dirs + files);
      if n !in files {
        assert n in dirs;
        FilterMapMember(dir.entries, DirFilter(path, pats, m), EntryName, n);
        var i :| 0 <= i < |dir.entries| && DirKept(path, dir.entries[i], pats, m) && dir.entries[i].name == n;
        assert IsDirNamed(dir.entries[i], n);
      }
    }
  }

  /** Number of kept entries below `dir`, counted in listing order without
      sorting: kept files count one, kept sub-directories one plus their own
      count, pruned sub-directories nothing at all. */
  function KeptCount(path: string, dir: Dir, pats: seq<string>, m: Matcher): nat
    decreases dir, 2
  {
    KeptCountFrom(path, dir, pats, m, 0)
  }

  function KeptCountFrom(path: string, dir: Dir, pats: seq<string>, m: Matcher, k: nat): nat
    decreases dir, 1, |dir.entries| - k
  {
    if k >= |dir.entries| then 0
    else
      assert dir.entries[k] in dir.entries;
      EntryCount(path, dir.entries[k], pats, m) + KeptCountFrom(path, dir, pats, m, k + 1)
  }

  /** The share of one entry of `path` in the count. */
  function EntryCount(path: string, e: Entry, pats: seq<string>, m: Matcher): nat
    decreases e, 0
  {
    if FileKept(path, e, pats, m) then 1
    else if DirKept(path, e, pats, m) then 1 + KeptCount(Join(path, e.name), e.dir, pats, m)
    else 0
  }

  /** What `os.listdir` can return: distinct, non-empty, `/`-free names, and
      the same below every sub-directory. */
  predicate WellFormed(dir: Dir)
    decreases dir
  {
    && (forall i, j :: 0 <= i < |dir.entries| && 0 <= j < |dir.entries| && i != j ==>
          dir.entries[i].name != dir.entries[j].name)
    && (forall i :: 0 <= i < |dir.entries| ==> ValidName(dir.entries[i].name))
    && (forall i :: 0 <= i < |dir.entries| && dir.entries[i].Subdir? ==>
          dir.entries[i] in dir.entries && WellFormed(dir.entries[i].dir))
  }
}

=== FILE: tree_facts.dfy ===
/**
 What the tree renderer promises: one line per kept entry and nothing for
 the root, a connector line per entry that names it, prefixes that nest,
 the filtering rules for files and sub-directories, and an output that does
 not depend on the order in which the directory is listed.
 */
module TreeFacts {
  import opened Wrappers
  import opened Text
  import opened Paths
  import opened Lists
  import opened Order
  import opened Ignore
  import opened Tree

  /* ---------- names in a directory ---------- */

  /** An entry of the directory that survives its filter. */
  predicate KeptEntryNamed(path: string, dir: Dir, pats: seq<string>, m: Matcher, i: int, n: string) {
    0 <= i < |dir.entries| && dir.entries[i].name == n &&
      (DirKept(path, dir.entries[i], pats, m) || FileKept(path, dir.entries[i], pats, m))
  }

  /** The sorted names of a directory level are exactly the names of its
      kept entries: those of kept sub-directories and of kept files. */
  lemma NamesExactly(path: string, dir: Dir, pats: seq<string>, m: Matcher, n: string)
    ensures Sorted(Names(path, dir, pats, m))
    ensures n in Names(path, dir, pats, m) <==> exists i :: KeptEntryNamed(path, dir, pats, m, i, n)
  {
    var dirs := KeptDirs(path, dir.entries, pats, m);
    var files := KeptFiles(path, dir.entries, pats, m);
    assert n in Names(path, dir, pats, m) <==> n in dirs || n in files by {
      assert n in Names(path, dir, pats, m) <==> n in multiset(dirs + files);
    }
    if n in dirs || n in files {
      KeptNameHasEntry(path, dir, pats, m, n);
    }
    if exists i :: KeptEntryNamed(path, dir, pats, m, i, n) {
      var i :| KeptEntryNamed(path, dir, pats, m, i, n);
      KeptEntryHasName(path, dir, pats, m, i);
    }
  }

  lemma KeptNameHasEntry(path: string, dir: Dir, pats: seq<string>, m: Matcher, n: string)
    requires n in KeptDirs(path, dir.entries, pats, m) || n in KeptFiles(path, dir.entries, pats, m)
    ensures exists i :: KeptEntryNamed(path, dir, pats, m, i, n)
  {
    if n in KeptDirs(path, dir.entries, pats, m) {
      FilterMapMember(dir.entries, DirFilter(path, pats, m), EntryName, n);
      var i :| 0 <= i < |dir.entries| && DirFilter(path, pats, m)(dir.entries[i]) && EntryName(dir.entries[i]) == n;
      assert KeptEntryNamed(path, dir, pats, m, i, n);
    } else {
      FilterMapMember(dir.entries, FileFilter(path, pats, m), EntryName, n);
      var i :| 0 <= i < |dir.entries| && FileFilter(path, pats, m)(dir.entries[i]) && EntryName(dir.entries[i]) == n;
      assert KeptEntryNamed(path, dir, pats, m, i, n);
    }
  }

  lemma KeptEntryHasName(path: string, dir: Dir, pats: seq<string>, m: Matcher, i: int)
    requires 0 <= i < |dir.entries|
    requires DirKept(path, dir.entries[i], pats, m) || FileKept(path, dir.entries[i], pats, m)
    ensures dir.entries[i].name in KeptDirs(path, dir.entries, pats, m) + KeptFiles(path, dir.entries, pats, m)
  {
    if DirKept(path, dir.entries[i], pats, m) {
      FilterMapHas(dir.entries, DirFilter(path, pats, m), EntryName, i);
    } else {
      FilterMapHas(dir.entries, FileFilter(path, pats, m), EntryName, i);
    }
  }

  /** In a real listing an entry is printed exactly when it survives its
      filter: a file when no user pattern matches it, a sub-directory when
      its name has no leading `.` and neither the user patterns nor the
      built-in list match it. Entries that are neither are never printed. */
  lemma EntryListed(path: string, dir: Dir, pats: seq<string>, m: Matcher, k: nat)
    requires WellFormed(dir) && k < |dir.entries|
    ensures dir.entries[k].name in Names(path, dir, pats, m) <==>
      || (dir.entries[k].File? && !IsIgnored(Join(path, dir.entries[k].name), pats, m))
      || (dir.entries[k].Subdir? && !StartsWith(dir.entries[k].name, ".")
          && !IsIgnored(Join(path, dir.entries[k].name), pats + ExplicitIgnore, m))
  {
    var n := dir.entries[k].name;
    NamesExactly(path, dir, pats, m, n);
    if n in Names(path, dir, pats, m) {
      var i :| KeptEntryNamed(path, dir, pats, m, i, n);
    } else {
      assert !KeptEntryNamed(path, dir, pats, m, k, n);
    }
  }

  /** The built-in list prunes sub-directories only: for a built-in name the
      matcher accepts literally, a sub-directory of that name is never
      printed, while a file of that name is printed unless a user pattern
      matches it. */
  lemma BuiltinPatternsPruneOnlyDirectories(path: string, dir: Dir, pats: seq<string>, m: Matcher, k: nat)
    requires WellFormed(dir) && k < |dir.entries|
    requires dir.entries[k].name in ExplicitIgnore
    requires m(dir.entries[k].name, dir.entries[k].name)
    ensures dir.entries[k].Subdir? ==> dir.entries[k].name !in Names(path, dir, pats, m)
    ensures dir.entries[k].File? ==>
      (dir.entries[k].name in Names(path, dir, pats, m) <==> !IsIgnored(Join(path, dir.entries[k].name), pats, m))
  {
    var n := dir.entries[k].name;
    EntryListed(path, dir, pats, m, k);
    BasenameOfJoin(path, n);
    var i :| 0 <= i < |ExplicitIgnore| && ExplicitIgnore[i] == n;
    assert (pats + ExplicitIgnore)[|pats| + i] == n;
  }

  /* ---------- line count ---------- */

  /** Lines one sorted name contributes: one for a kept file, one plus the
      count below it for a sub-directory. */
  function NameCount(path: string, dir: Dir, pats: seq<string>, m: Matcher, files: seq<string>, name: string): nat {
    if name in files then 1
    else match FindDir(dir.entries, name)
      case None => 0
      case Some(j) => 1 + KeptCount(Join(path, name), dir.entries[j].dir, pats, m)
  }

  function NameCountFn(path: string, dir: Dir, pats: seq<string>, m: Matcher, files: seq<string>): string -> nat {
    (name: string) => NameCount(path, dir, pats, m, files, name)
  }

  function EntryCountFn(path: string, pats: seq<string>, m: Matcher): Entry -> nat {
    (e: Entry) => EntryCount(path, e, pats, m)
  }

  /** Counting in listing order is summing the entries' shares. */
  lemma {:induction false} KeptCountFromSum(path: string, dir: Dir, pats: seq<string>, m: Matcher, k: nat)
    requires k <= |dir.entries|
    ensures KeptCountFrom(path, dir, pats, m, k) == SumOf(dir.entries[k..], EntryCountFn(path, pats, m))
    decreases |dir.entries| - k
  {
    if k < |dir.entries| {
      KeptCountFromSum(path, dir, pats, m, k + 1);
      assert dir.entries[k..][1..] == dir.entries[k + 1..];
    }
  }

  /** In a well-formed directory an entry's share is the share of its name. */
  lemma EntryShare(path: string, dir: Dir, pats: seq<string>, m: Matcher, k: nat)
    requires WellFormed(dir) && k < |dir.entries|
    ensures
      var files := KeptFiles(path, dir.entries, pats, m);
      var e := dir.entries[k];
      (if DirKept(path, e, pats, m) then NameCount(path, dir, pats, m, files, e.name) else 0)
      + (if FileKept(path, e, pats, m) then NameCount(path, dir, pats, m, files, e.name) else 0)
      == EntryCount(path, e, pats, m)
  {
    var files := KeptFiles(path, dir.entries, pats, m);
    var e := dir.entries[k];
    if FileKept(path, e, pats, m) {
      FilterMapHas(dir.entries, FileFilter(path, pats, m), EntryName, k);
    } else if DirKept(path, e, pats, m) {
      if e.name in files {
        FilterMapMember(dir.entries, FileFilter(path, pats, m), EntryName, e.name);
      }
      assert IsDirNamed(dir.entries[k], e.name);
      var r := FindDir(dir.entries, e.name);
      assert r.Some? && r.value == k;
    }
  }

  /** The number of lines of the items from position `i` on. */
  lemma {:induction false} RenderItemsCount(path: string, dir: Dir, pats: seq<string>, m: Matcher,
                                            files: seq<string>, names: seq<string>, childPrefix: string, i: nat)
    requires WellFormed(dir) && childPrefix != ""
    requires i <= |names| && Resolvable(dir, files, names)
    ensures |RenderItems(path, dir, pats, m, files, names, childPrefix, i)|
      == SumOf(names[i..], NameCountFn(path, dir, pats, m, files))
    decreases dir, 0, |names| - i
  {
    if i < |names| {
      ItemLinesCount(path, dir, pats, m, files, names, childPrefix, i);
      RenderItemsCount(path, dir, pats, m, files, names, childPrefix, i + 1);
      assert names[i..][1..] == names[i + 1..];
    }
  }

  lemma {:induction false} ItemLinesCount(path: string, dir: Dir, pats: seq<string>, m: Matcher,
                                          files: seq<string>, names: seq<string>, childPrefix: string, i: nat)
    requires WellFormed(dir) && childPrefix != ""
    requires i < |names| && Resolvable(dir, files, names)
    ensures |ItemLines(path, dir, pats, m, files, names, childPrefix, i)|
      == NameCount(path, dir, pats, m, files, names[i])
    decreases dir, 0, 0
  {
    var name := names[i];
    if name !in files {
      assert name in names;
      var j := FindDir(dir.entries, name).value;
      assert dir.entries[j] in dir.entries;
      RenderCount(Join(path, name), dir.entries[j].dir, pats, m, childPrefix, i == |names| - 1);
    }
  }

  /** The rendering has one line per kept entry at any depth below the
      directory, plus the directory's own line when a prefix is given; the
      count is taken in listing order, before sorting. */
  lemma {:induction false} RenderCount(path: string, dir: Dir, pats: seq<string>, m: Matcher, prefix: string, isLast: bool)
    requires WellFormed(dir)
    ensures |Render(path, dir, pats, m, prefix, isLast)|
      == (if prefix != "" then 1 else 0) + KeptCount(path, dir, pats, m)
    decreases dir, 1
  {
    var files := KeptFiles(path, dir.entries, pats, m);
    var names := Names(path, dir, pats, m);
    NamesResolvable(path, dir, pats, m);
    RenderItemsCount(path, dir, pats, m, files, names, prefix + Continuation(isLast), 0);
    assert names[0..] == names;
    NamesCountSum(path, dir, pats, m);
  }

  /** Summed over the sorted names, the shares give the listing-order count. */
  lemma NamesCountSum(path: string, dir: Dir, pats: seq<string>, m: Matcher)
    requires WellFormed(dir)
    ensures SumOf(Names(path, dir, pats, m), NameCountFn(path, dir, pats, m, KeptFiles(path, dir.entries, pats, m)))
      == KeptCount(path, dir, pats, m)
  {
    var dirs := KeptDirs(path, dir.entries, pats, m);
    var files := KeptFiles(path, dir.entries, pats, m);
    var w := NameCountFn(path, dir, pats, m, files);
    SumOfPermutation(Names(path, dir, pats, m), dirs + files, w);
    SumOfAppend(dirs, files, w);
    KeptSharesSum(path, dir, pats, m);
  }

  /** A kept sub-directory's share, and nothing for other entries. */
  function DirShareFn(path: string, dir: Dir, pats: seq<string>, m: Matcher, files: seq<string>): Entry -> nat {
    (e: Entry) => if DirKept(path, e, pats, m) then NameCount(path, dir, pats, m, files, e.name) else 0
  }

  /** A kept file's share, and nothing for other entries. */
  function FileShareFn(path: string, dir: Dir, pats: seq<string>, m: Matcher, files: seq<string>): Entry -> nat {
    (e: Entry) => if FileKept(path, e, pats, m) then NameCount(path, dir, pats, m, files, e.name) else 0
  }

  /** The shares of the kept sub-directories and files, in listing order,
      add up to the count. */
  lemma KeptSharesSum(path: string, dir: Dir, pats: seq<string>, m: Matcher)
    requires WellFormed(dir)
    ensures
      var files := KeptFiles(path, dir.entries, pats, m);
      var w := NameCountFn(path, dir, pats, m, files);
      SumOf(KeptDirs(path, dir.entries, pats, m), w) + SumOf(files, w) == KeptCount(path, dir, pats, m)
  {
    var files := KeptFiles(path, dir.entries, pats, m);
    var w := NameCountFn(path, dir, pats, m, files);
    var gd := DirShareFn(path, dir, pats, m, files);
    var gf := FileShareFn(path, dir, pats, m, files);
    SumOfFilterMap(dir.entries, DirFilter(path, pats, m), EntryName, w, gd);
    SumOfFilterMap(dir.entries, FileFilter(path, pats, m), EntryName, w, gf);
    forall k | 0 <= k < |dir.entries|
      ensures gd(dir.entries[k]) + gf(dir.entries[k]) == EntryCountFn(path, pats, m)(dir.entries[k])
    {
      EntryShare(path, dir, pats, m, k);
    }
    SumOfPointwise(dir.entries, gd, gf, EntryCountFn(path, pats, m));
    KeptCountFromSum(path, dir, pats, m, 0);
    assert dir.entries[0..] == dir.entries;
  }

  /* ---------- shape of the lines ---------- */

  /** The first line an item contributes is the connector line naming it:
      `└── ` for the last item of its directory, `├── ` otherwise. For a
      sub-directory this is the head line of its own rendering, whose
      `basename(join(root, name))` is the name again. */
  lemma ItemFirstLine(path: string, dir: Dir, pats: seq<string>, m: Matcher,
                      files: seq<string>, names: seq<string>, childPrefix: string, i: nat)
    requires WellFormed(dir) && childPrefix != ""
    requires i < |names| && Resolvable(dir, files, names)
    ensures |ItemLines(path, dir, pats, m, files, names, childPrefix, i)| > 0
    ensures ItemLines(path, dir, pats, m, files, names, childPrefix, i)[0]
      == childPrefix + Connector(i == |names| - 1) + names[i]
  {
    var name := names[i];
    if name !in files {
      assert name in names;
      var j := FindDir(dir.entries, name).value;
      assert ValidName(dir.entries[j].name);
      BasenameOfJoin(path, name);
    }
  }

  /** Every line of the items starts with the child prefix. */
  lemma {:induction false} RenderItemsPrefix(path: string, dir: Dir, pats: seq<string>, m: Matcher,
                                             files: seq<string>, names: seq<string>, childPrefix: string, i: nat)
    requires i <= |names| && Resolvable(dir, files, names)
    ensures forall l :: l in RenderItems(path, dir, pats, m, files, names, childPrefix, i) ==> StartsWith(l, childPrefix)
    decreases dir, 0, |names| - i
  {
    if i < |names| {
      ItemLinesPrefix(path, dir, pats, m, files, names, childPrefix, i);
      RenderItemsPrefix(path, dir, pats, m, files, names, childPrefix, i + 1);
    }
  }

  lemma {:induction false} ItemLinesPrefix(path: string, dir: Dir, pats: seq<string>, m: Matcher,
                                           files: seq<string>, names: seq<string>, childPrefix: string, i: nat)
    requires i < |names| && Resolvable(dir, files, names)
    ensures forall l :: l in ItemLines(path, dir, pats, m, files, names, childPrefix, i) ==> StartsWith(l, childPrefix)
    decreases dir, 0, 0
  {
    var name := names[i];
    if name in files {
      var l := childPrefix + Connector(i == |names| - 1) + name;
      assert l == childPrefix + (Connector(i == |names| - 1) + name);
      assert l[..|childPrefix|] == childPrefix;
    } else {
      assert name in names;
      var j := FindDir(dir.entries, name).value;
      assert dir.entries[j] in dir.entries;
      RenderPrefix(Join(path, name), dir.entries[j].dir, pats, m, childPrefix, i == |names| - 1);
    }
  }

  /** Prefixes nest: every line of a rendering starts with the prefix it was
      given, and every line after the directory's own starts with that prefix
      extended by `│   ` (more entries follow the directory) or four blanks
      (the directory was the last entry of its parent). */
  lemma {:induction false} RenderPrefix(path: string, dir: Dir, pats: seq<string>, m: Matcher, prefix: string, isLast: bool)
    ensures forall l :: l in Render(path, dir, pats, m, prefix, isLast) ==> StartsWith(l, prefix)
    ensures
      var r := Render(path, dir, pats, m, prefix, isLast);
      forall k :: (if prefix != "" then 1 else 0) <= k < |r| ==> StartsWith(r[k], prefix + Continuation(isLast))
    decreases dir, 1
  {
    var files := KeptFiles(path, dir.entries, pats, m);
    var names := Names(path, dir, pats, m);
    var childPrefix := prefix + Continuation(isLast);
    NamesResolvable(path, dir, pats, m);
    var items := RenderItems(path, dir, pats, m, files, names, childPrefix, 0);
    RenderItemsPrefix(path, dir, pats, m, files, names, childPrefix, 0);
    var r := Render(path, dir, pats, m, prefix, isLast);
    var h := if prefix != "" then 1 else 0;
    assert r[h..] == items;
    forall k | h <= k < |r| ensures StartsWith(r[k], childPrefix) && StartsWith(r[k], prefix) {
      assert r[k] == items[k - h];
      StartsWithShorter(r[k], prefix, Continuation(isLast));
    }
    if prefix != "" {
      var l := prefix + Connector(isLast) + Basename(path);
      assert r[0] == l;
      assert l[..|prefix|] == prefix;
    }
  }

  /** The top-level call renders no line for the root itself: there is one
      line per kept entry, every line starts with `│   ` although nothing
      follows the root, and the first line names the least kept name. */
  lemma RootListing(path: string, dir: Dir, pats: seq<string>, m: Matcher)
    requires WellFormed(dir)
    ensures |Render(path, dir, pats, m, "", false)| == KeptCount(path, dir, pats, m)
    ensures forall l :: l in Render(path, dir, pats, m, "", false) ==> StartsWith(l, Bar)
    ensures
      var names := Names(path, dir, pats, m);
      var r := Render(path, dir, pats, m, "", false);
      names != [] ==> |r| > 0 && r[0] == Bar + Connector(|names| == 1) + names[0]
  {
    RenderCount(path, dir, pats, m, "", false);
    RenderPrefix(path, dir, pats, m, "", false);
    assert "" + Continuation(false) == Bar;
    var files := KeptFiles(path, dir.entries, pats, m);
    var names := Names(path, dir, pats, m);
    NamesResolvable(path, dir, pats, m);
    if names != [] {
      ItemFirstLine(path, dir, pats, m, files, names, Bar, 0);
    }
  }

  /* ---------- listing order ---------- */

  /** With distinct names, the sub-directory a name denotes is the same
      entry whichever order the listing comes in. */
  lemma SameSubdir(a: seq<Entry>, b: seq<Entry>, name: string)
    requires multiset(a) == multiset(b) && WellFormed(Dir(b))
    requires FindDir(a, name).Some?
    ensures FindDir(b, name).Some?
    ensures a[FindDir(a, name).value] == b[FindDir(b, name).value]
  {
    var e := a[FindDir(a, name).value];
    assert e in multiset(b);
    var k :| 0 <= k < |b| && b[k] == e;
    assert IsDirNamed(b[k], name);
  }

  /** The rendering does not depend on the order `os.listdir` returns the
      entries in: any permutation of a directory's entries renders the same
      lines. */
  lemma ListingOrderIrrelevant(path: string, a: seq<Entry>, b: seq<Entry>, pats: seq<string>, m: Matcher,
                               prefix: string, isLast: bool)
    requires multiset(a) == multiset(b)
    requires WellFormed(Dir(a)) && WellFormed(Dir(b))
    ensures Render(path, Dir(a), pats, m, prefix, isLast) == Render(path, Dir(b), pats, m, prefix, isLast)
  {
    var fa := KeptFiles(path, a, pats, m);
    var fb := KeptFiles(path, b, pats, m);
    FilterMapPermutation(a, b, DirFilter(path, pats, m), EntryName);
    FilterMapPermutation(a, b, FileFilter(path, pats, m), EntryName);
    SortPermutationInvariant(KeptDirs(path, a, pats, m) + fa, KeptDirs(path, b, pats, m) + fb);
    var names := Names(path, Dir(a), pats, m);
    assert names == Names(path, Dir(b), pats, m);
    NamesResolvable(path, Dir(a), pats, m);
    NamesResolvable(path, Dir(b), pats, m);
    assert forall n :: n in fa <==> n in fb by {
      forall n ensures n in fa <==> n in fb {
        assert n in fa <==> n in multiset(fa);
        assert n in fb <==> n in multiset(fb);
      }
    }
    ItemsOrderIrrelevant(path, a, b, pats, m, fa, fb, names, prefix + Continuation(isLast), 0);
  }

  lemma {:induction false} ItemsOrderIrrelevant(path: string, a: seq<Entry>, b: seq<Entry>, pats: seq<string>, m: Matcher,
                                                fa: seq<string>, fb: seq<string>, names: seq<string>, childPrefix: string, i: nat)
    requires multiset(a) == multiset(b) && WellFormed(Dir(b))
    requires forall n :: n in fa <==> n in fb
    requires i <= |names| && Resolvable(Dir(a), fa, names) && Resolvable(Dir(b), fb, names)
    ensures RenderItems(path, Dir(a), pats, m, fa, names, childPrefix, i)
         == RenderItems(path, Dir(b), pats, m, fb, names, childPrefix, i)
    decreases |names| - i
  {
    if i < |names| {
      var name := names[i];
      if name !in fa {
        assert name in names;
        SameSubdir(a, b, name);
      }
      ItemsOrderIrrelevant(path, a, b, pats, m, fa, fb, names, childPrefix, i + 1);
    }
  }
}

=== FILE: tree_outline.dfy ===
/**
 Where each entry's connector sits. The outline walks the same sorted names
 as the renderer but keeps only the depth and name of each kept entry, in
 pre-order, and no text; the rendered lines follow it one for one, and
 each line carries its connector at column 4·(depth + 1), followed by the
 name.
 */
module TreeOutline {
  import opened Wrappers
  import opened Text
  import opened Paths
  import opened Ignore
  import opened Tree

  /** A kept entry at a given depth below the root (top level is depth 0). */
  datatype Mark = Mark(depth: nat, name: string)

  /** The kept entries below `dir`, in the order they are printed. */
  function Outline(path: string, dir: Dir, pats: seq<string>, m: Matcher, depth: nat): seq<Mark>
    decreases dir, 1, 0
  {
    NamesResolvable(path, dir, pats, m);
    OutlineItems(path, dir, pats, m, KeptFiles(path, dir.entries, pats, m), Names(path, dir, pats, m), depth, 0)
  }

  function OutlineItems(path: string, dir: Dir, pats: seq<string>, m: Matcher,
                        files: seq<string>, names: seq<string>, depth: nat, i: nat): seq<Mark>
    requires i <= |names| && Resolvable(dir, files, names)
    decreases dir, 0, |names| - i + 1
  {
    if i == |names| then []
    else OutlineItem(path, dir, pats, m, files, names, depth, i)
         + OutlineItems(path, dir, pats, m, files, names, depth, i + 1)
  }

  function OutlineItem(path: string, dir: Dir, pats: seq<string>, m: Matcher,
                       files: seq<string>, names: seq<string>, depth: nat, i: nat): seq<Mark>
    requires i < |names| && Resolvable(dir, files, names)
    decreases dir, 0, 0
  {
    var name := names[i];
    if name in files then [Mark(depth, name)]
    else
      assert name in names;
      var j := FindDir(dir.entries, name).value;
      assert dir.entries[j] in dir.entries;
      [Mark(depth, name)] + Outline(Join(path, name), dir.entries[j].dir, pats, m, depth + 1)
  }

  /** Line `l` shows `name` behind a connector that starts at column `col`. */
  predicate LineAt(l: string, col: nat, name: string) {
    && |l| == col + 4 + |name|
    && (l[col..col + 4] == Tee || l[col..col + 4] == Elbow)
    && l[col + 4..] == name
  }

  /** The rendered lines follow the outline one for one. */
  predicate Follows(r: seq<string>, o: seq<Mark>) {
    |r| == |o| && forall k :: 0 <= k < |r| ==> LineAt(r[k], 4 * (o[k].depth + 1), o[k].name)
  }

  lemma FollowsAppend(r1: seq<string>, o1: seq<Mark>, r2: seq<string>, o2: seq<Mark>)
    requires Follows(r1, o1) && Follows(r2, o2)
    ensures Follows(r1 + r2, o1 + o2)
  {
    var r := r1 + r2;
    var o := o1 + o2;
    forall k | 0 <= k < |r| ensures LineAt(r[k], 4 * (o[k].depth + 1), o[k].name) {
      if k < |r1| {
        assert r[k] == r1[k] && o[k] == o1[k];
      } else {
        assert r[k] == r2[k - |r1|] && o[k] == o2[k - |r1|];
      }
    }
  }

  lemma ConnectorLine(prefix: string, isLast: bool, name: string)
    ensures LineAt(prefix + Connector(isLast) + name, |prefix|, name)
  {
    var l := prefix + Connector(isLast) + name;
    assert l[|prefix|..|prefix| + 4] == Connector(isLast);
    assert l[|prefix| + 4..] == name;
  }

  lemma {:induction false} ItemsFollow(path: string, dir: Dir, pats: seq<string>, m: Matcher,
                                       files: seq<string>, names: seq<string>, childPrefix: string, depth: nat, i: nat)
    requires WellFormed(dir) && |childPrefix| == 4 * (depth + 1)
    requires i <= |names| && Resolvable(dir, files, names)
    ensures Follows(RenderItems(path, dir, pats, m, files, names, childPrefix, i),
                    OutlineItems(path, dir, pats, m, files, names, depth, i))
    decreases dir, 1, |names| - i
  {
    if i < |names| {
      ItemFollows(path, dir, pats, m, files, names, childPrefix, depth, i);
      ItemsFollow(path, dir, pats, m, files, names, childPrefix, depth, i + 1);
      FollowsAppend(ItemLines(path, dir, pats, m, files, names, childPrefix, i),
                    OutlineItem(path, dir, pats, m, files, names, depth, i),
                    RenderItems(path, dir, pats, m, files, names, childPrefix, i + 1),
                    OutlineItems(path, dir, pats, m, files, names, depth, i + 1));
    }
  }

  lemma {:induction false} ItemFollows(path: string, dir: Dir, pats: seq<string>, m: Matcher,
                                       files: seq<string>, names: seq<string>, childPrefix: string, depth: nat, i: nat)
    requires WellFormed(dir) && |childPrefix| == 4 * (depth + 1)
    requires i < |names| && Resolvable(dir, files, names)
    ensures Follows(ItemLines(path, dir, pats, m, files, names, childPrefix, i),
                    OutlineItem(path, dir, pats, m, files, names, depth, i))
    decreases dir, 0
  {
    var name := names[i];
    var isLastItem := i == |names| - 1;
    ConnectorLine(childPrefix, isLastItem, name);
    if name !in files {
      assert name in names;
      var j := FindDir(dir.entries, name).value;
      assert dir.entries[j] in dir.entries;
      assert ValidName(dir.entries[j].name);
      SubdirFollows(path, name, dir.entries[j].dir, pats, m, childPrefix, isLastItem, depth);
    }
  }

  /** A sub-directory's rendering: its own line, then its contents one
      level deeper. */
  lemma {:induction false} SubdirFollows(path: string, name: string, sub: Dir, pats: seq<string>, m: Matcher,
                                         childPrefix: string, isLastItem: bool, depth: nat)
    requires WellFormed(sub) && ValidName(name) && |childPrefix| == 4 * (depth + 1)
    ensures Follows(Render(Join(path, name), sub, pats, m, childPrefix, isLastItem),
                    [Mark(depth, name)] + Outline(Join(path, name), sub, pats, m, depth + 1))
    decreases sub, 2
  {
    var subPath := Join(path, name);
    NamesResolvable(subPath, sub, pats, m);
    var subFiles := KeptFiles(subPath, sub.entries, pats, m);
    var subNames := Names(subPath, sub, pats, m);
    ItemsFollow(subPath, sub, pats, m, subFiles, subNames, childPrefix + Continuation(isLastItem), depth + 1, 0);
    SubdirHeadFollows(path, name, sub, pats, m, childPrefix, isLastItem, depth, subFiles, subNames);
  }

  /** Once a sub-directory's contents follow their outline, its whole
      rendering, led by its own connector line, follows its outline entry. */
  lemma SubdirHeadFollows(path: string, name: string, sub: Dir, pats: seq<string>, m: Matcher,
                          childPrefix: string, isLastItem: bool, depth: nat, subFiles: seq<string>, subNames: seq<string>)
    requires ValidName(name) && |childPrefix| == 4 * (depth + 1)
    requires subFiles == KeptFiles(Join(path, name), sub.entries, pats, m)
    requires subNames == Names(Join(path, name), sub, pats, m)
    requires Resolvable(sub, subFiles, subNames)
    requires Follows(RenderItems(Join(path, name), sub, pats, m, subFiles, subNames, childPrefix + Continuation(isLastItem), 0),
                     OutlineItems(Join(path, name), sub, pats, m, subFiles, subNames, depth + 1, 0))
    ensures Follows(Render(Join(path, name), sub, pats, m, childPrefix, isLastItem),
                    [Mark(depth, name)] + Outline(Join(path, name), sub, pats, m, depth + 1))
  {
    RenderOfSubdir(path, name, sub, pats, m, childPrefix, isLastItem, subFiles, subNames);
    HeadFollows(childPrefix, isLastItem, name, depth,
                RenderItems(Join(path, name), sub, pats, m, subFiles, subNames, childPrefix + Continuation(isLastItem), 0),
                OutlineItems(Join(path, name), sub, pats, m, subFiles, subNames, depth + 1, 0));
  }

  /** A sub-directory's rendering opens with its own connector line. */
  lemma RenderOfSubdir(path: string, name: string, sub: Dir, pats: seq<string>, m: Matcher,
                       childPrefix: string, isLastItem: bool, subFiles: seq<string>, subNames: seq<string>)
    requires ValidName(name) && childPrefix != ""
    requires subFiles == KeptFiles(Join(path, name), sub.entries, pats, m)
    requires subNames == Names(Join(path, name), sub, pats, m)
    requires Resolvable(sub, subFiles, subNames)
    ensures Render(Join(path, name), sub, pats, m, childPrefix, isLastItem)
        == [childPrefix + Connector(isLastItem) + name]
           + RenderItems(Join(path, name), sub, pats, m, subFiles, subNames, childPrefix + Continuation(isLastItem), 0)
  {
    BasenameOfJoin(path, name);
  }

  /** A connector line in front of lines that follow an outline. */
  lemma HeadFollows(prefix: string, isLast: bool, name: string, depth: nat, items: seq<string>, marks: seq<Mark>)
    requires |prefix| == 4 * (depth + 1) && Follows(items, marks)
    ensures Follows([prefix + Connector(isLast) + name] + items, [Mark(depth, name)] + marks)
  {
    ConnectorLine(prefix, isLast, name);
    FollowsAppend([prefix + Connector(isLast) + name], [Mark(depth, name)], items, marks);
  }

  /** From the top-level call, the lines follow the outline from depth 0:
      an entry at depth d has exactly 4·(d + 1) characters before its
      connector, the first four being the `│   ` every top-level line
      carries. */
  lemma RenderFollowsOutline(path: string, dir: Dir, pats: seq<string>, m: Matcher)
    requires WellFormed(dir)
    ensures Follows(Render(path, dir, pats, m, "", false), Outline(path, dir, pats, m, 0))
  {
    NamesResolvable(path, dir, pats, m);
    var files := KeptFiles(path, dir.entries, pats, m);
    var names := Names(path, dir, pats, m);
    RenderOfRoot(path, dir, pats, m, files, names);
    ItemsFollow(path, dir, pats, m, files, names, Bar, 0, 0);
  }

  /** The top-level call prints no line of its own and gives its entries the
      `│   ` block. */
  lemma RenderOfRoot(path: string, dir: Dir, pats: seq<string>, m: Matcher, files: seq<string>, names: seq<string>)
    requires files == KeptFiles(path, dir.entries, pats, m) && names == Names(path, dir, pats, m)
    requires Resolvable(dir, files, names)
    ensures Render(path, dir, pats, m, "", false) == RenderItems(path, dir, pats, m, files, names, Bar, 0)
  {
    assert "" + Continuation(false) == Bar;
  }
}

=== FILE: wrappers.dfy ===
/** Option type standing for Python's `None`-or-value results. */
module Wrappers {

  datatype Option<+T> = None | Some(value: T)
}
